=== FILE: README.md ===
# mfa_auth in Dafny

A model of the authentication and MFA-enrolment protocol of `mfa_auth`: the
Express server in `index.js` and the two browser scripts `loginflow.js` (login
form and register modal) and `dashboard.js` (session countdown and profile).

The server side is a set of pure transitions over an abstract user store. The
store maps each username to an `Account(id, passwordHash, mfaSecret)` and keeps
an AUTO_INCREMENT counter. Each route handler takes the request's JSON fields
(`Option<string>`, where JavaScript's `!x` becomes "absent or empty") and the
store. It returns the status with its body and the new store.

bcrypt, otplib, qrcode and jsonwebtoken are not modelled. They are the
function-typed fields of one `Codec.Oracles` record, so every property holds
for every behaviour of those libraries. A lemma that needs one of them to
behave (a hash that matches its password, say) states that in its own
`requires`.

The output of `generateSecret()` is an argument, `generated`, since it is
random.

The browser side is one immutable `LoginFlow.Client` record: the inputs, the
panel visibility, the alerts, `loginState`, `registerState`, the saved token
and the current page. Each asynchronous button handler is split at its
`fetch`:
- a submit function returns the new client and the request it sends, if any;
- a reply function takes `Some(response)`, or `None` for the `catch` branch.

Module `Protocol` wires the two sides together. `Serve` answers each request
the page can send with the matching route. The lemmas follow a login, a TOTP
step and a full registration through the modal from one end to the other,
and a login token used at `/mfa/setup` on the server.

Modules, leaves first:
- `Wrappers`: `Option`, `Result`.
- `JsText`: JavaScript's `trim`, `split(' ')`, and the case-insensitive
  regular-expression tests the page uses.
- `Decimal`: decimal text of whole numbers.
- `Codec`: the library oracles.
- `UserStore`: the users table.
- `Http`: requests and responses.
- `Server`: the route handlers.
- `LoginFlow`: `loginflow.js`.
- `Dashboard`: `dashboard.js`.
- `Protocol`: page and server together.

Behaviours of the code the model keeps as they are:
- `/mfa/setup` answers 200 with a secret even when no row holds the token's
  id; the update then changes nothing (`UserStore.SetSecretUnknownId`).
- The older `/register` answers 400 for a taken username.
- The `/register/finish` insert has no duplicate handler of its own. The
  model is sequential, so the pre-check alone decides; see "Left out".
- An account whose `mfa_secret` is the empty string counts as having no MFA,
  because the check is JavaScript truthiness.

Two behaviours of the code are proved, not corrected:
- The register modal trims the password before hashing it. The login form
  sends the password untrimmed. A password typed with outer white space at
  registration is therefore refused at login (`Protocol.UntrimmedPasswordRefused`).
- At the expiry second the countdown shows "0:00", not "expired", and the
  session ends all the same (`Dashboard.ExpiryShowsZero`).

## Model

| member | source | states |
|---|---|---|
| UserStore.Insert | index.js:51-52 | the insert fails exactly when the username is taken (UNIQUE column); otherwise exactly one row is added, under the next AUTO_INCREMENT id, with every other row unchanged, and the store invariant is kept |
| UserStore.SetSecretWhereId | index.js:143 | `UPDATE … WHERE id = ?` keeps the set of usernames and the counter; rows with another id are unchanged; the matching rows keep id and hash and get the new secret; validity is kept |
| UserStore.SetSecretTouchesOneRow | index.js:143 | in a valid store (distinct ids) the update changes exactly the one row holding the id, and only its secret |
| UserStore.SetSecretUnknownId | index.js:143 | an id that no row holds leaves the store as it was |
| Server.RegisterInit | index.js:67-82 | never changes the store; 400 exactly when a field is missing or empty, 409 exactly when the username exists, 200 exactly otherwise, and then the body holds the generated secret and the QR code of its provisioning URI for issuer "MyApp" |
| Server.RegisterFinish | index.js:85-116 | checks in order: 400 when any of the four fields is missing, else 409 for a taken username, else 401 "Invalid TOTP" when the code fails against the submitted secret, else 200; every refusal leaves the store unchanged; success adds exactly the row (next id, hash of the password, the submitted secret) and returns a token signed over that row's id and username |
| Server.Register | index.js:120-136 | 400 for a missing field; 400 "Username already exists" exactly when the name is taken, store unchanged; otherwise 201 and exactly one new row with no MFA secret |
| Server.BearerToken | index.js:37-38 | the token is present exactly when the header is non-empty and holds a space, and it is then the second part of the header's `split(' ')`, itself free of spaces |
| Server.BearerTokenOf | index.js:37-38 | a header `scheme token` (with nothing, or a space, after the token) yields exactly `token`, whatever the scheme word is |
| Server.AuthenticateToken | index.js:36-45 | 401 "Token required" exactly when the header has no non-empty second segment; 403 "Invalid token" exactly when verification fails; otherwise the verified claims, passed on unchanged |
| Server.Profile | index.js:191-193 | 200 exactly when the guard passes, and the body then carries "Welcome" and echoes the verified claims; a refused token gets the guard's own 401 or 403 answer |
| Server.MfaSetup | index.js:139-146 | answers with the new secret and its QR code; keeps usernames, counter, ids and hashes; sets the secret on the row with the token's id, with no TOTP check; leaves every other row unchanged |
| Server.MfaSetupRoute | index.js:139 | a refused token leaves the store unchanged and returns the guard's answer; an accepted one runs the handler with the verified claims |
| Server.MfaSetupSkipsTotp | index.js:139-150 | the upgrade's outcome does not depend on the TOTP check at all |
| Server.Login | index.js:153-188 | never changes the store; checks in order: 400 missing field, 404 "user not found", 401 "Invalid credentials", then only for an account with a secret 401 "TOTP required" without a code or 401 "Invalid TOTP" for a failing one; 200 exactly when the independent `Authenticated` condition holds, with a token over the account's id and username |
| Server.LoginIgnoresTotpWithoutMfa | index.js:170-178 | for an account without MFA the totp field makes no difference to the outcome |
| Server.Handle | index.js:67-193 | over every route: the store stays valid (usernames unique, ids distinct and below the counter), no row is deleted, ids and hashes never change, a token only comes with 200, and only `/mfa/setup` changes an existing row |
| Server.RunPreservesValid | index.js:52 | every sequence of calls keeps the store valid |
| Server.RunFromEmpty | index.js:48-58 | from the freshly created, empty table every sequence of calls leaves a valid store |
| Server.RunKeepsAccounts | index.js:67-193 | no sequence of calls deletes an account or changes its id or password hash |
| Server.FinishTwiceConflicts | index.js:91-94 | a successful finish repeated with the same data is refused with 409 and stores nothing |
| Server.LoginAfterFinish | index.js:101-105 | after a successful finish, login without a code is a TOTP challenge and with a passing code yields a token for the new id |
| Server.UpgradeTurnsOnChallenge | index.js:127 | an account from the older route logs in with its password alone, and after `/mfa/setup` the same login is a TOTP challenge |
| JsText.Trim | loginflow.js:47-48 | `trim()` removes exactly the white space at both ends: the result is a contiguous slice of the input with only white space around it and none at its own ends |
| JsText.TrimPadded | loginflow.js:47-48 | trimming white space padding off text without outer white space gives that text back |
| JsText.TrimIdempotent | loginflow.js:128 | trimming an already trimmed value changes nothing |
| JsText.Split | index.js:38 | `split(' ')` gives at least one part, no part holds a space, and joining the parts with spaces gives the input back |
| JsText.SplitJoin | index.js:38 | splitting the space-join of space-free parts gives those parts back |
| JsText.SearchFoldedIsContains | loginflow.js:68 | the scan for a case-insensitive literal finds a match exactly when one occurs |
| JsText.NotFoundAtIff | loginflow.js:178 | the greedy scan for `not\s*found` at a position agrees with the pattern's reading: "not", any white space, "found" |
| JsText.NotFoundAtSound | loginflow.js:178 | what the greedy scan for `not\s*found` finds at a position is a match of the pattern there |
| JsText.NotFoundAtComplete | loginflow.js:178 | every match of `not\s*found` at a position is found by the greedy scan |
| Decimal.NatToString | dashboard.js:22 | the decimal text of a number is canonical and reads back as that number |
| Decimal.NatToStringOfValue | dashboard.js:22 | canonical decimal text is the text of its own value |
| Dashboard.TwoDigits | dashboard.js:22 | the seconds field is exactly two digits that read back as the seconds, a leading zero below ten |
| Dashboard.FormatTimeLeft | dashboard.js:18-23 | "expired" exactly for a negative count; otherwise the text reads back as minutes `s / 60` and two-digit seconds `s % 60` |
| Dashboard.FormatTimeLeftRoundTrip | dashboard.js:20-22 | for a non-negative count, the minutes and seconds read back from the text give `m * 60 + ss == s` with `0 <= ss < 60` |
| Dashboard.SessionTick | dashboard.js:29-43 | a tick ends the session exactly when `now >= exp`, and shows "expired" exactly when `now > exp`; otherwise the countdown reads back as the minutes and seconds of `exp - now` |
| Dashboard.ExpiryShowsZero | dashboard.js:19-38 | at the expiry second the countdown reads "0:00" and the session ends |
| Dashboard.FirstTruthy | dashboard.js:61-62 | a chain of logical ors over the candidates and a fallback gives the first truthy candidate, or the fallback when none is truthy |
| Dashboard.ProfileOf | dashboard.js:61-63 | the name is `username`, else `user`, else "User"; the id is `id`, else `sub`, else "-"; `exp` defaults to 0 |
| Dashboard.LoadDashboard | dashboard.js:52-63 | no stored token (or an empty one) goes back to the login page; otherwise the profile comes from the decoded payload |
| Dashboard.EndSession | dashboard.js:45-49 | the session-expired handler, and the logout button with the same two statements, remove the stored token and leave the dashboard, after which `loadDashboard` goes back to the login page for any payload |
| Dashboard.AfterTick | dashboard.js:36-39 | a tick with `left <= 0` ends the session; any other tick leaves the browser as it was |
| Dashboard.UndecodableTokenExpires | dashboard.js:13-15 | a payload that cannot be decoded shows the defaults and its session ends at the first tick |
| LoginFlow.ShowLoginStep | loginflow.js:5-15 | exactly the panel for the step is visible; username and password are required exactly on step 1, the TOTP exactly on step 2 |
| LoginFlow.ShowRegisterStep | loginflow.js:30-34 | exactly one of start button, QR panel and TOTP panel is visible: the one for the step |
| LoginFlow.TotpInput | loginflow.js:84-88 | a code is accepted exactly when the trimmed input is six ASCII digits, and the code sent is that trimmed value |
| LoginFlow.TotpInputPadded | loginflow.js:198-202 | six digits with any white space around them are accepted as those six digits |
| LoginFlow.NotFoundText | loginflow.js:178 | the scan matches exactly when one of the four alternatives of the not-found pattern occurs, case-insensitively |
| LoginFlow.MessageOr | loginflow.js:189 | JavaScript's logical or of `data.message` and a fallback: the server's message when it is present and non-empty, else the fallback |
| LoginFlow.StartRegister | loginflow.js:45-61 | no request unless the trimmed username and password are both non-empty (a warning instead); otherwise both are kept in `registerState` and sent to `/register/init` |
| LoginFlow.RegisterInitReply | loginflow.js:62-75 | secret and QR code are kept, and the QR panel shown, only for an ok reply carrying both, with the alert left as it was; a refused reply shows "User sudah terdaftar, silakan login." when its message contains "exist" in any letter case, else the message or "Registrasi gagal."; no reply shows the connection error |
| LoginFlow.RegisterInitReplyExisting | loginflow.js:68-69 | a refused reply whose message contains "exist" in any letter case is reported as an existing account |
| LoginFlow.RegisterAfterQr | loginflow.js:78-80 | the TOTP panel alone is shown and nothing else changes |
| LoginFlow.SubmitRegisterTotp | loginflow.js:82-100 | a malformed code sends nothing; otherwise the finish request carries exactly the username, password and secret kept by init and the trimmed code |
| LoginFlow.RegisterFinishReply | loginflow.js:101-111 | an ok reply with a token saves it, closes the modal and opens the dashboard; a refused reply only sets the error alert to its message or "TOTP salah / aktivasi gagal."; no reply shows the connection error |
| LoginFlow.SubmitLogin | loginflow.js:124-141 | ignored unless step 1 shows; no request without a trimmed username and an untrimmed password; otherwise both are kept in `loginState` and sent |
| LoginFlow.ReactToLogin | loginflow.js:144-189 | the reply is dispatched in priority order: ok with a token, then exactly "TOTP required", then any token, then 404 or a not-found message, else an error showing the message or "Login gagal" |
| LoginFlow.LoginReply | loginflow.js:144-192 | each reaction's effect: dashboard with the token; step 2; `/mfa/setup` with the bearer header; the register modal prefilled with the login credentials; or a danger alert |
| LoginFlow.MfaSetupReply | loginflow.js:164-171 | a QR code moves to the QR panel and is kept, with nothing else changed; a reply without one leaves the panels and shows its message or "Gagal setup MFA"; no reply shows the connection error |
| LoginFlow.SubmitTotp | loginflow.js:196-210 | a malformed code sends nothing; otherwise the step-1 username and password are sent with the trimmed code |
| LoginFlow.TotpReply | loginflow.js:211-220 | an ok reply with a token saves it and opens the dashboard; a refused reply only sets the error alert to its message or "TOTP salah"; no reply shows the connection error |
| LoginFlow.LoginAfterQr | loginflow.js:224-227 | back to step 2 with the TOTP required, nothing else changed |
| Protocol.Serve | index.js:67-188 | each request kind gets 200 exactly under its route's own condition: login under `Authenticated`, init for two non-empty fields and a free name, finish for four non-empty fields, a free name and a passing code, the upgrade for a token the guard accepts; a token only comes with 200, validity is kept, and login and init never change the store |
| Protocol.NoMfaSetupBranch | loginflow.js:154-173 | against this server the page's branch for a token on a failed reply is never taken |
| Protocol.WrongPasswordIsAnError | loginflow.js:176-189 | the server's "Invalid credentials" reply is shown as an error, not taken as "user not found" |
| Protocol.LoginUnknownUserOffersRegistration | loginflow.js:176-186 | an unknown username leads to the register modal, prefilled with the typed username and password |
| Protocol.UnknownUserRegisters | loginflow.js:45-67 | that modal sends the same username to init, which answers with a QR code |
| Protocol.LoginWrongPassword | index.js:166-168 | a wrong password is shown as "Invalid credentials"; apart from the alert, only the kept step-1 username (trimmed) and password change |
| Protocol.LoginAsksForTotp | loginflow.js:149-153 | the right password for an MFA account leads to step 2 with the credentials kept and no token |
| Protocol.LoginWithoutMfaOpensDashboard | loginflow.js:144-148 | the right password for an account without MFA opens the dashboard with a token for that account |
| Protocol.LoginStepTwo | loginflow.js:196-220 | the TOTP step opens the dashboard exactly when the code passes against the account's secret, else shows "Invalid TOTP" |
| Protocol.RegisterInitShowsQr | loginflow.js:45-67 | init for a free username leaves `registerState` as (username, password, generated secret, its QR code) on the QR panel |
| Protocol.RegisterInitTaken | loginflow.js:68-69 | init for a taken username is shown as an existing account |
| Protocol.RegistrationFinishes | loginflow.js:82-105 | after a successful init, an accepted code stores exactly the account kept in `registerState` (its password's hash, its secret, the next id) and opens the dashboard with a token for it, closing the modal |
| Protocol.RegistrationCompletes | loginflow.js:45-108 | the whole modal with an accepted code stores exactly the new account (trimmed password's hash, generated secret) and opens the dashboard with a token for the new id |
| Protocol.RegistrationWrongCode | index.js:96-99 | a refused code stores nothing and shows "Invalid TOTP" in the modal |
| Protocol.FinishWithoutInitRefused | index.js:87-89 | finishing without a secret from init is refused with 400 and stores nothing |
| Protocol.UntrimmedPasswordRefused | loginflow.js:48 | a password with outer white space, stored trimmed by the modal, is refused when typed the same way at login |
| Protocol.LoginTokenAuthenticates | index.js:36-45 | a login token sent back as `Bearer <token>` passes the guard with the claims it was signed over |
| Protocol.UpgradeWithLoginToken | index.js:139-146 | with that token, `/mfa/setup` sets the generated secret on the logged-in account and on no other |

## Left out

- Database failures and the 500 answers of `/register`, `/mfa/setup` and `/login`: the store here only fails on a taken username.
- MySQL collation: usernames are compared as exact strings, while a default MySQL collation compares them case-insensitively.
- The race between the pre-check and the insert in `/register/finish` (no duplicate handler there): the model is sequential.
- An AUTO_INCREMENT value used up by a failed insert: the counter only moves on success.
- UserStore.Insert: ids and text columns are unbounded; the INT id's ceiling (2147483647) and the VARCHAR(255) limits are not modelled, so the insert that MySQL would refuse at the ceiling, which `/register` would then report as a taken username, is not modelled either.
- bcrypt, otplib, qrcode and jsonwebtoken internals: salts and cost, the TOTP time window, the token's expiry and signature are inside the oracles. Token expiry therefore shows up only as `verify` returning `None`.
- `generateSecret`'s randomness: the secret is an argument.
- Rate limiting, CORS, `console.log`, `createTable` and `startServer`: framework and I/O wiring.
- DOM rendering, `fetch`, `localStorage`, timers, the focus calls, Bootstrap's modal and offcanvas, the sidebar navigation, the `alert` of `showSessionExpired` and the `Date` and locale formatting of `exp`: these are presentation. Their effects on the model's state (page, saved token, alert, panels) are modelled.
- `parseJwt`'s base64 and JSON decoding: the decoded payload is an argument, and a failed decode is `Dashboard.Undecodable`.
- Non-string JSON request fields: every field is a string or absent.
- Dashboard.FormatTimeLeft: counts are whole numbers; JavaScript's exponent notation for counts of 1e21 and above is not modelled.
- Dashboard.ProfileOf: a non-numeric `exp` is not modelled; `exp` is an integer or absent.
- The markup's initial visibility of the register modal's panels: the model does not fix it. Each lemma that needs a panel visible says so in its requires.

=== FILE: codec.dfy ===
/** The foreign libraries the server delegates to — password hashing, TOTP,
    QR rendering and token signing — as uninterpreted functions. */
module Codec {
  import opened Wrappers

  /** The claims the server signs into a session token. */
  datatype Claims = Claims(id: int, username: string)

  /** One fixed choice of the libraries' behaviour. Every field is a plain
      function: the model assumes nothing about them except where a lemma
      says so in its own requires. */
  datatype Oracles = Oracles(
    hash: string -> string,                    // bcrypt.hash(password, 10)
    matches: (string, string) -> bool,         // bcrypt.compare(password, hash)
    totpOk: (string, string) -> bool,          // authenticator.check(code, secret), at the current time
    keyUri: (string, string, string) -> string, // authenticator.keyuri(username, issuer, secret)
    qrDataUrl: string -> string,               // qrcode.toDataURL(text)
    sign: Claims -> string,                    // jwt.sign(claims, key, { expiresIn })
    verify: string -> Option<Claims>)          // jwt.verify(token, key): the claims, or None on any failure

  /** The issuer name written into every provisioning URI. */
  const Issuer := "MyApp"

  /** The QR code image (as a data URL) of the provisioning URI for `secret`. */
  function ProvisioningQr(o: Oracles, username: string, secret: string): string {
    o.qrDataUrl(o.keyUri(username, Issuer, secret))
  }
}

=== FILE: dashboard.dfy ===
/** The dashboard page: the session countdown text, the moment the session
    is treated as over, and the profile fields read from the token payload. */
module Dashboard {
  import opened Wrappers
  import opened Decimal

  // ---------------------------------------------------------------------------
  // Countdown text
  // ---------------------------------------------------------------------------

  /** Seconds below ten get a leading zero so the field is always two digits. */
  function TwoDigits(s: nat): (r: string)
    requires s < 60
    ensures |r| == 2 && AllDigits(r) && DigitsValue(r) == s
  {
    if s < 10 then
      var d := NatToString(s);
      assert ("0" + d)[..1] == "0";
      "0" + d
    else
      NatToString(s)
  }

  /** `formatTimeLeft(seconds)`: "expired" for a negative count, otherwise
      whole minutes, a colon and two digits of seconds. */
  function FormatTimeLeft(seconds: int): (r: string)
    ensures r == "expired" <==> seconds < 0
    ensures seconds >= 0 ==> ReadClock(r) == Some((seconds / 60, seconds % 60))
  {
    if seconds < 0 then
      "expired"
    else
      var m := NatToString(seconds / 60);
      var ss := TwoDigits(seconds % 60);
      var r := m + ":" + ss;
      assert r[|m|] == ':';
      assert r[..|m|] == m && r[|m| + 1..] == ss;
      ColonAfterDigits(m, ss);
      assert r[0] == m[0] && IsDigit(m[0]);
      r
  }

  /** Index of the first ':' in `t`. */
  function ColonAt(t: string): (r: Option<nat>)
    ensures r.Some? ==> r.value < |t| && t[r.value] == ':' && ':' !in t[..r.value]
    ensures r.None? ==> ':' !in t
  {
    if t == [] then None
    else if t[0] == ':' then Some(0)
    else match ColonAt(t[1..])
      case None => None
      case Some(i) =>
        assert t[..i + 1] == [t[0]] + t[1..][..i];
        Some(i + 1)
  }

  /** Reads "m:ss" text back as (minutes, seconds): canonical minutes,
      exactly two digits of seconds, seconds below sixty. */
  function ReadClock(t: string): Option<(nat, nat)> {
    match ColonAt(t)
    case None => None
    case Some(i) =>
      var mins := t[..i];
      var secs := t[i + 1..];
      if Canonical(mins) && |secs| == 2 && AllDigits(secs) && DigitsValue(secs) < 60 then
        Some((DigitsValue(mins), DigitsValue(secs)))
      else
        None
  }

  /** The first colon after a run of digits is the one that ends the run. */
  lemma {:induction false} ColonAfterDigits(m: string, ss: string)
    requires AllDigits(m)
    ensures ColonAt(m + ":" + ss) == Some(|m|)
    decreases |m|
  {
    var t := m + ":" + ss;
    if m != [] {
      assert t[0] == m[0];
      assert t[1..] == m[1..] + ":" + ss;
      ColonAfterDigits(m[1..], ss);
    }
  }

  /** Round trip: the countdown of a non-negative count reads back as minutes
      and seconds that add up to it, with the seconds below sixty. */
  lemma FormatTimeLeftRoundTrip(seconds: int)
    requires seconds >= 0
    ensures ReadClock(FormatTimeLeft(seconds)).Some?
    ensures var (m, ss) := ReadClock(FormatTimeLeft(seconds)).value;
            m * 60 + ss == seconds && 0 <= ss < 60
  {
  }

  // ---------------------------------------------------------------------------
  // Session expiry
  // ---------------------------------------------------------------------------

  /** What one tick of the session timer shows and whether it ends the session. */
  datatype Tick = Tick(display: string, expired: bool)

  /** One tick of `setSessionTimer(exp)` at second `now`: the countdown shows
      `exp - now`, and the session ends once that is no longer positive. */
  function SessionTick(exp: int, now: int): (t: Tick)
    ensures t.expired <==> now >= exp
    ensures t.display == "expired" <==> now > exp
    ensures now <= exp ==> ReadClock(t.display) == Some(((exp - now) / 60, (exp - now) % 60))
  {
    var left := exp - now;
    Tick(FormatTimeLeft(left), left <= 0)
  }

  /** At the expiry second the countdown reads "0:00", not "expired", and the
      session still ends. */
  lemma ExpiryShowsZero(exp: int)
    ensures SessionTick(exp, exp) == Tick("0:00", true)
  {
    var r := FormatTimeLeft(0);
    assert NatToString(0) == "0";
    assert TwoDigits(0) == "00";
  }

  // ---------------------------------------------------------------------------
  // Profile from the token payload
  // ---------------------------------------------------------------------------

  /** The JSON values a decoded payload field can hold; objects and arrays
      are lumped together, since all that matters here is that they are truthy. */
  datatype JsValue = JsNull | JsBool(b: bool) | JsNumber(n: int) | JsString(s: string) | JsObject

  /** JavaScript truthiness of a possibly missing field. */
  predicate Truthy(v: Option<JsValue>) {
    match v
    case None => false
    case Some(JsNull) => false
    case Some(JsBool(b)) => b
    case Some(JsNumber(n)) => n != 0
    case Some(JsString(s)) => s != ""
    case Some(JsObject) => true
  }

  /** `cands[i]` is the first truthy candidate. */
  predicate ChosenAt(cands: seq<Option<JsValue>>, i: nat) {
    i < |cands| && Truthy(cands[i]) && forall j | 0 <= j < i :: !Truthy(cands[j])
  }

  /** `a || b || … || fallback`: the first truthy candidate, else the fallback. */
  function FirstTruthy(cands: seq<Option<JsValue>>, fallback: JsValue): (r: JsValue)
    ensures || (exists i | 0 <= i < |cands| :: ChosenAt(cands, i) && r == cands[i].value)
            || ((forall j | 0 <= j < |cands| :: !Truthy(cands[j])) && r == fallback)
  {
    if cands == [] then
      fallback
    else if Truthy(cands[0]) then
      assert ChosenAt(cands, 0);
      cands[0].value
    else
      var r := FirstTruthy(cands[1..], fallback);
      assert forall i | 0 <= i < |cands| - 1 :: ChosenAt(cands[1..], i) ==> ChosenAt(cands, i + 1);
      r
  }

  /** The claims the dashboard reads from a decoded token; `{}` when decoding fails. */
  datatype Payload = Payload(
    username: Option<JsValue>,
    user: Option<JsValue>,
    id: Option<JsValue>,
    sub: Option<JsValue>,
    exp: Option<int>)

  const Undecodable := Payload(None, None, None, None, None)

  /** What the sidebar and profile panel show. */
  datatype Profile = Profile(name: JsValue, id: JsValue, exp: int)

  /** The profile `loadDashboard` derives from a payload. */
  function ProfileOf(p: Payload): (r: Profile)
    ensures Truthy(p.username) ==> r.name == p.username.value
    ensures !Truthy(p.username) && Truthy(p.user) ==> r.name == p.user.value
    ensures !Truthy(p.username) && !Truthy(p.user) ==> r.name == JsString("User")
    ensures Truthy(p.id) ==> r.id == p.id.value
    ensures !Truthy(p.id) && Truthy(p.sub) ==> r.id == p.sub.value
    ensures !Truthy(p.id) && !Truthy(p.sub) ==> r.id == JsString("-")
    ensures p.exp.Some? ==> r.exp == p.exp.value
    ensures p.exp.None? ==> r.exp == 0
  {
    var names := [p.username, p.user];
    var ids := [p.id, p.sub];
    assert names[0] == p.username && names[1] == p.user;
    assert ids[0] == p.id && ids[1] == p.sub;
    Profile(FirstTruthy(names, JsString("User")), FirstTruthy(ids, JsString("-")), p.exp.GetOr(0))
  }

  /** What `loadDashboard` does with the stored token. */
  datatype View = BackToLogin | ShowProfile(profile: Profile)

  /** `loadDashboard()`: no stored token sends the browser back to the login
      page; otherwise the decoded payload fills the profile. */
  function LoadDashboard(stored: Option<string>, decoded: Payload): (v: View)
    ensures v.BackToLogin? <==> stored.None? || stored.value == ""
    ensures v.ShowProfile? ==> v.profile == ProfileOf(decoded)
  {
    if stored.None? || stored.value == "" then BackToLogin else ShowProfile(ProfileOf(decoded))
  }

  /** A token that cannot be decoded shows the defaults, and its session is
      over at the first tick. */
  lemma UndecodableTokenExpires(now: int)
    requires now >= 0
    ensures ProfileOf(Undecodable) == Profile(JsString("User"), JsString("-"), 0)
    ensures SessionTick(ProfileOf(Undecodable).exp, now).expired
  {
  }

  // ---------------------------------------------------------------------------
  // Leaving the dashboard
  // ---------------------------------------------------------------------------

  /** What the browser holds under the token key, and whether it shows the
      dashboard or the login page. */
  datatype Browser = Browser(stored: Option<string>, onDashboard: bool)

  /** The logout button, and `showSessionExpired` after its alert: the stored
      token is removed and the browser goes back to the login page, so the
      next `loadDashboard` sends it back there whatever the payload. */
  function EndSession(b: Browser): (b': Browser)
    ensures !b'.onDashboard
    ensures forall decoded :: LoadDashboard(b'.stored, decoded) == BackToLogin
  {
    Browser(None, false)
  }

  /** The browser after one tick at second `now` of the timer for `exp`: the
      session is ended exactly when the tick says so, and is otherwise left
      alone. */
  function AfterTick(b: Browser, exp: int, now: int): (b': Browser)
    ensures now >= exp ==> b'.stored.None? && !b'.onDashboard
    ensures now < exp ==> b' == b
  {
    if SessionTick(exp, now).expired then EndSession(b) else b
  }
}

=== FILE: decimal.dfy ===
/** Decimal text of non-negative integers, as JavaScript's number-to-string
    conversion writes it for the whole numbers the dashboard shows. */
module Decimal {

  predicate IsDigit(c: char) {
    '0' <= c <= '9'
  }

  predicate AllDigits(s: string) {
    forall k | 0 <= k < |s| :: IsDigit(s[k])
  }

  /** Decimal text as a number-to-string conversion emits it: at least one
      digit and no leading zero except in "0". */
  predicate Canonical(s: string) {
    |s| >= 1 && AllDigits(s) && (|s| == 1 || s[0] != '0')
  }

  function DigitChar(d: nat): (c: char)
    requires d < 10
    ensures IsDigit(c) && c as int - '0' as int == d
  {
    ('0' as int + d) as char
  }

  /** The value a string of decimal digits denotes (the empty string denotes 0). */
  function DigitsValue(s: string): nat
    requires AllDigits(s)
  {
    if s == [] then 0 else DigitsValue(s[..|s| - 1]) * 10 + (s[|s| - 1] as int - '0' as int)
  }

  /** The decimal text of `n`, which reads back as `n`. */
  function NatToString(n: nat): (r: string)
    ensures Canonical(r)
    ensures DigitsValue(r) == n
    ensures n < 10 <==> |r| == 1
  {
    if n < 10 then
      [DigitChar(n)]
    else
      var front := NatToString(n / 10);
      var r := front + [DigitChar(n % 10)];
      assert r[..|r| - 1] == front;
      r
  }

  /** The other direction of the round trip: canonical text is the text of its value. */
  lemma {:induction false} NatToStringOfValue(s: string)
    requires Canonical(s)
    ensures NatToString(DigitsValue(s)) == s
    decreases |s|
  {
    var v := DigitsValue(s);
    if |s| == 1 {
      assert s[..0] == [];
    } else {
      var front := s[..|s| - 1];
      assert front[0] == s[0];
      NatToStringOfValue(front);
      var d := s[|s| - 1] as int - '0' as int;
      assert v == DigitsValue(front) * 10 + d;
      LeadingDigitPositive(front);
      assert v / 10 == DigitsValue(front) && v % 10 == d;
      assert s == front + [s[|s| - 1]];
    }
  }

  /** Canonical text longer than one digit denotes a value of at least 1. */
  lemma {:induction false} LeadingDigitPositive(s: string)
    requires Canonical(s)
    ensures |s| > 1 ==> DigitsValue(s) >= 1
    ensures s[0] != '0' ==> DigitsValue(s) >= 1
    decreases |s|
  {
    if |s| > 1 {
      var front := s[..|s| - 1];
      assert front[0] == s[0];
      LeadingDigitPositive(front);
    }
  }
}

=== FILE: http.dfy ===
/** What travels between the login page and the server: JSON request bodies
    and JSON responses with a status code. */
module Http {
  import opened Wrappers
  import opened Codec

  /** JavaScript truthiness of a string field: absent or empty is false. */
  predicate Given(f: Option<string>) {
    f.Some? && f.value != ""
  }

  /** The response body fields either side reads. */
  datatype Body = Body(
    message: Option<string>,
    token: Option<string>,
    secret: Option<string>,
    qrCode: Option<string>,
    user: Option<Claims>)

  datatype Response = Response(status: int, body: Body)

  /** `res.status(status).json({ message })`. */
  function Message(status: int, text: string): Response {
    Response(status, Body(Some(text), None, None, None, None))
  }

  /** `res.ok`: a 2xx status. */
  predicate IsOk(r: Response) {
    200 <= r.status <= 299
  }

  /** The requests the login page sends, with the body fields it fills in
      (`code` is the `totp` field of `/register/finish`). */
  datatype Request =
    | LoginRequest(username: string, password: string, totp: Option<string>)
    | RegisterInitRequest(username: string, password: string)
    | RegisterFinishRequest(username: string, password: string, secret: string, code: string)
    | MfaSetupRequest(authorization: string)
}

=== FILE: jstext.dfy ===
/** The few JavaScript string built-ins the login page relies on:
    `String.prototype.trim`, `String.prototype.split(' ')`, and the
    case-insensitive regular expressions it tests server messages with. */
module JsText {

  /** ECMAScript WhiteSpace and LineTerminator code points: what `trim`
      removes and what the regular-expression class `\s` matches. */
  predicate IsSpace(c: char) {
    || c == '\t' || c == '\n' || c == '\U{B}' || c == '\U{C}' || c == '\r'
    || c == ' ' || c == '\U{A0}' || c == '\U{1680}'
    || ('\U{2000}' <= c <= '\U{200A}')
    || c == '\U{2028}' || c == '\U{2029}' || c == '\U{202F}' || c == '\U{205F}'
    || c == '\U{3000}' || c == '\U{FEFF}'
  }

  predicate AllSpace(s: string) {
    forall k | 0 <= k < |s| :: IsSpace(s[k])
  }

  /** `s` neither starts nor ends with white space. */
  predicate NoOuterSpace(s: string) {
    s == [] || (!IsSpace(s[0]) && !IsSpace(s[|s| - 1]))
  }

  /** Length of the white-space run at the start of `s`. */
  function LeadingSpace(s: string): (n: nat)
    ensures n <= |s|
    ensures AllSpace(s[..n])
    ensures n == |s| || !IsSpace(s[n])
    decreases |s|
  {
    if |s| > 0 && IsSpace(s[0]) then 1 + LeadingSpace(s[1..]) else 0
  }

  /** Length of the white-space run at the end of `s`. */
  function TrailingSpace(s: string): (n: nat)
    ensures n <= |s|
    ensures AllSpace(s[|s| - n..])
    ensures n == |s| || !IsSpace(s[|s| - n - 1])
    decreases |s|
  {
    if |s| > 0 && IsSpace(s[|s| - 1]) then 1 + TrailingSpace(s[..|s| - 1]) else 0
  }

  /** `s.trim()`: the infix of `s` left after removing white space at both ends. */
  function Trim(s: string): (r: string)
    ensures NoOuterSpace(r)
    ensures exists i | 0 <= i <= |s| - |r| ::
              && s[i..i + |r|] == r
              && AllSpace(s[..i])
              && AllSpace(s[i + |r|..])
  {
    var i := LeadingSpace(s);
    var t := s[i..];
    var n := TrailingSpace(t);
    var j := |s| - n;
    assert AllSpace(s[j..]) by {
      assert t[|t| - n..] == s[j..];
    }
    assert i < j ==> !IsSpace(s[j - 1]) by {
      if i < j { assert t[|t| - n - 1] == s[j - 1]; }
    }
    var r := s[i..j];
    assert r != [] ==> r[0] == s[i] && r[|r| - 1] == s[j - 1];
    assert s[i..i + |r|] == r && s[i + |r|..] == s[j..];
    r
  }

  /** The white-space run at the start of a padded word is exactly the padding. */
  lemma {:induction false} LeadingSpaceOfPadded(a: string, rest: string)
    requires AllSpace(a)
    requires rest == [] || !IsSpace(rest[0])
    ensures LeadingSpace(a + rest) == |a|
    decreases |a|
  {
    if a == [] {
      assert a + rest == rest;
    } else {
      assert (a + rest)[0] == a[0];
      assert (a + rest)[1..] == a[1..] + rest;
      LeadingSpaceOfPadded(a[1..], rest);
    }
  }

  /** The white-space run at the end of a padded word is exactly the padding. */
  lemma {:induction false} TrailingSpaceOfPadded(front: string, b: string)
    requires AllSpace(b)
    requires front == [] || !IsSpace(front[|front| - 1])
    ensures TrailingSpace(front + b) == |b|
    decreases |b|
  {
    if b == [] {
      assert front + b == front;
    } else {
      var s := front + b;
      assert s[|s| - 1] == b[|b| - 1];
      assert s[..|s| - 1] == front + b[..|b| - 1];
      TrailingSpaceOfPadded(front, b[..|b| - 1]);
    }
  }

  /** Trimming undoes white-space padding: `(a + d + b).trim() == d`. */
  lemma TrimPadded(a: string, d: string, b: string)
    requires AllSpace(a) && AllSpace(b) && NoOuterSpace(d)
    ensures Trim(a + d + b) == d
  {
    var s := a + d + b;
    if d == [] {
      assert s == a + b;
      assert AllSpace(s) by {
        forall k | 0 <= k < |s| ensures IsSpace(s[k]) {
          if k < |a| { assert s[k] == a[k]; } else { assert s[k] == b[k - |a|]; }
        }
      }
      AllSpaceTrimsToEmpty(s);
    } else {
      assert s == a + (d + b);
      LeadingSpaceOfPadded(a, d + b);
      var t := s[|a|..];
      assert t == d + b;
      TrailingSpaceOfPadded(d, b);
      assert t[..|t| - |b|] == d;
    }
  }

  /** Trimming twice is trimming once. */
  lemma TrimIdempotent(s: string)
    ensures Trim(Trim(s)) == Trim(s)
  {
    var d := Trim(s);
    assert [] + d + [] == d;
    TrimPadded([], d, []);
  }

  lemma AllSpaceTrimsToEmpty(s: string)
    requires AllSpace(s)
    ensures Trim(s) == []
  {
    LeadingSpaceOfPadded(s, []);
    assert s + [] == s;
  }

  // ---------------------------------------------------------------------------
  // `split(' ')`
  // ---------------------------------------------------------------------------

  /** The inverse of `split(' ')`: the parts glued back with single spaces. */
  function Join(parts: seq<string>): string
    requires |parts| >= 1
  {
    if |parts| == 1 then parts[0] else parts[0] + " " + Join(parts[1..])
  }

  /** `s.split(' ')`: the maximal space-free segments of `s`, in order,
      including the empty ones between adjacent spaces and at either end. */
  function Split(s: string): (parts: seq<string>)
    ensures |parts| >= 1
    ensures forall k | 0 <= k < |parts| :: ' ' !in parts[k]
    ensures Join(parts) == s
    decreases |s|
  {
    if s == [] then
      [""]
    else
      var rest := Split(s[1..]);
      if s[0] == ' ' then
        assert Join([""] + rest) == " " + Join(rest) by {
          assert ([""] + rest)[1..] == rest;
        }
        [""] + rest
      else
        var parts := [[s[0]] + rest[0]] + rest[1..];
        assert Join(parts) == s by {
          if |rest| > 1 {
            assert parts[1..] == rest[1..];
          }
        }
        parts
  }

  /** A leading space closes an empty first segment. */
  lemma SplitSpace(t: string)
    ensures Split(" " + t) == [""] + Split(t)
  {
    assert (" " + t)[1..] == t;
  }

  /** Splitting a joined list gives the list back, when no part holds a space. */
  lemma {:induction false} SplitJoin(parts: seq<string>)
    requires |parts| >= 1
    requires forall k | 0 <= k < |parts| :: ' ' !in parts[k]
    ensures Split(Join(parts)) == parts
    decreases |parts|
  {
    if |parts| == 1 {
      SplitWord(parts[0], "");
      assert parts[0] + "" == parts[0];
    } else {
      var tail := Join(parts[1..]);
      assert Join(parts) == parts[0] + (" " + tail);
      SplitJoin(parts[1..]);
      SplitSpace(tail);
      SplitWord(parts[0], " " + tail);
      assert Split(" " + tail)[1..] == Split(tail);
      assert parts[0] + Split(" " + tail)[0] == parts[0];
      assert parts == [parts[0]] + parts[1..];
    }
  }

  /** A space-free prefix glues onto the first segment of what follows it. */
  lemma {:induction false} SplitWord(w: string, rest: string)
    requires ' ' !in w
    ensures Split(w + rest) == [w + Split(rest)[0]] + Split(rest)[1..]
    decreases |w|
  {
    if w != [] {
      assert w[0] in w;
      assert (w + rest)[1..] == w[1..] + rest;
      assert forall c | c in w[1..] :: c in w;
      SplitWord(w[1..], rest);
      assert [w[0]] + (w[1..] + Split(rest)[0]) == w + Split(rest)[0];
    } else {
      assert w + rest == rest;
      assert w + Split(rest)[0] == Split(rest)[0];
      assert Split(rest) == [Split(rest)[0]] + Split(rest)[1..];
    }
  }

  /** The segment after the first space, as `s.split(' ')[1]` reads it. */
  function SecondSegment(s: string): (r: string)
    requires ' ' in s
  {
    Split(s)[1]
  }

  /** `scheme + " " + token + rest` yields `token` as its second segment, when
      neither word holds a space and `rest` is empty or starts a new segment. */
  lemma SecondSegmentOf(scheme: string, token: string, rest: string)
    requires ' ' !in scheme && ' ' !in token
    requires rest == [] || rest[0] == ' '
    ensures ' ' in scheme + " " + token + rest
    ensures Split(scheme + " " + token + rest)[1] == token
  {
    var s := scheme + " " + token + rest;
    assert s[|scheme|] == ' ';
    assert s == scheme + (" " + (token + rest));
    SplitWord(scheme, " " + (token + rest));
    SplitSpace(token + rest);
    SplitWord(token, rest);
    if rest != [] {
      assert rest == " " + rest[1..];
      SplitSpace(rest[1..]);
    }
  }

  // ---------------------------------------------------------------------------
  // Case-insensitive literal matching, as `/…/i` does it without the `u` flag
  // ---------------------------------------------------------------------------

  /** Case folding of a non-Unicode `/i` pattern: a character folds to a
      different ASCII letter only when it is an ASCII letter itself. */
  function AsciiLower(c: char): char {
    if 'A' <= c <= 'Z' then (c as int + 32) as char else c
  }

  /** `lit` (written in lower case) matches `s` case-insensitively at `i`. */
  predicate MatchesAt(s: string, i: nat, lit: string) {
    i + |lit| <= |s| && forall k | 0 <= k < |lit| :: AsciiLower(s[i + k]) == lit[k]
  }

  /** `/lit/i.test(s)`, stated as the existence of a match position. */
  ghost predicate ContainsFolded(s: string, lit: string) {
    exists i | 0 <= i <= |s| :: MatchesAt(s, i, lit)
  }

  /** The regular-expression engine's scan: try every start position from `i`. */
  function SearchFolded(s: string, lit: string, i: nat): (found: bool)
    ensures found <==> exists j | i <= j <= |s| :: MatchesAt(s, j, lit)
    decreases |s| - i
  {
    if i > |s| then false
    else if MatchesAt(s, i, lit) then true
    else SearchFolded(s, lit, i + 1)
  }

  /** The scan finds a match exactly when one exists. */
  lemma SearchFoldedIsContains(s: string, lit: string)
    ensures SearchFolded(s, lit, 0) <==> ContainsFolded(s, lit)
  {
  }

  /** `not\s*found` matches at `i`: "not", white space, then "found". */
  predicate NotFoundAt(s: string, i: nat) {
    && MatchesAt(s, i, "not")
    && MatchesAt(s, i + 3 + LeadingSpace(s[i + 3..]), "found")
  }

  /** The regular-expression reading of `not\s*found`: any amount of white
      space (including none) between the two words. */
  ghost predicate NotSpacesFoundAt(s: string, i: nat, k: nat) {
    i + 3 <= k <= |s| && MatchesAt(s, i, "not") && AllSpace(s[i + 3..k]) && MatchesAt(s, k, "found")
  }

  /** What the greedy scan finds is a match of the pattern. */
  lemma NotFoundAtSound(s: string, i: nat)
    requires NotFoundAt(s, i)
    ensures NotSpacesFoundAt(s, i, i + 3 + LeadingSpace(s[i + 3..]))
  {
    var n := LeadingSpace(s[i + 3..]);
    assert s[i + 3..i + 3 + n] == s[i + 3..][..n];
  }

  /** A match of the pattern is found by the greedy scan: the white space
      between the words is exactly the run the scan skips. */
  lemma NotFoundAtComplete(s: string, i: nat, k: nat)
    requires NotSpacesFoundAt(s, i, k)
    ensures NotFoundAt(s, i)
  {
    var a := s[i + 3..k];
    assert s[i + 3..] == a + s[k..];
    assert AsciiLower(s[k + 0]) == "found"[0] == 'f';
    assert s[k..][0] == s[k] && !IsSpace(s[k]);
    LeadingSpaceOfPadded(a, s[k..]);
  }

  /** The greedy scan agrees with the regular-expression reading at each start. */
  lemma NotFoundAtIff(s: string, i: nat)
    ensures NotFoundAt(s, i) <==> exists k: nat :: NotSpacesFoundAt(s, i, k)
  {
    if NotFoundAt(s, i) {
      NotFoundAtSound(s, i);
    }
    if k: nat :| NotSpacesFoundAt(s, i, k) {
      NotFoundAtComplete(s, i, k);
    }
  }

  /** The scan for `not\s*found` from position `i` onwards. */
  function SearchNotFound(s: string, i: nat): (found: bool)
    ensures found <==> exists j | i <= j <= |s| :: NotFoundAt(s, j)
    decreases |s| - i
  {
    if i + 3 > |s| then
      assert forall j | i <= j <= |s| :: !MatchesAt(s, j, "not");
      false
    else if NotFoundAt(s, i) then true
    else SearchNotFound(s, i + 1)
  }
}

=== FILE: loginflow.dfy ===
/** The login page: which panels show, which inputs are required, what each
    button sends, and how it reacts to each server reply. Each asynchronous
    handler is split at its `fetch`: the part up to the request, and the part
    that handles the reply (`None` when the request or its JSON failed). */
module LoginFlow {
  import opened Wrappers
  import opened JsText
  import opened Decimal
  import opened Http

  // ---------------------------------------------------------------------------
  // Panels
  // ---------------------------------------------------------------------------

  /** Visibility of the three login panels and the `required` flags of the
      login inputs. */
  datatype LoginPanels = LoginPanels(
    step1: bool, step2: bool, qr: bool,
    usernameRequired: bool, passwordRequired: bool, totpRequired: bool)

  /** The step whose panel is the only visible one, if exactly one is. */
  function VisibleLoginStep(v: LoginPanels): Option<int> {
    if v.step1 && !v.step2 && !v.qr then Some(1)
    else if !v.step1 && v.step2 && !v.qr then Some(2)
    else if !v.step1 && !v.step2 && v.qr then Some(3)
    else None
  }

  /** `showLoginStep(step)` with `updateRequiredFields(step)`: the panel for
      `step` alone is shown, and exactly the inputs on the shown panel are
      required. */
  function ShowLoginStep(step: int): (v: LoginPanels)
    ensures 1 <= step <= 3 ==> VisibleLoginStep(v) == Some(step)
    ensures !(1 <= step <= 3) ==> !v.step1 && !v.step2 && !v.qr
    ensures v.usernameRequired == v.step1 && v.passwordRequired == v.step1
    ensures v.totpRequired == v.step2
  {
    LoginPanels(step == 1, step == 2, step == 3, step == 1, step == 1, step == 2)
  }

  /** Visibility of the register modal's start button, QR panel and TOTP panel. */
  datatype RegisterPanels = RegisterPanels(start: bool, qr: bool, totp: bool)

  function VisibleRegisterStep(v: RegisterPanels): Option<int> {
    if v.start && !v.qr && !v.totp then Some(1)
    else if !v.start && v.qr && !v.totp then Some(2)
    else if !v.start && !v.qr && v.totp then Some(3)
    else None
  }

  /** `showRegisterStep(step)`: the part for `step` alone is shown. */
  function ShowRegisterStep(step: int): (v: RegisterPanels)
    ensures 1 <= step <= 3 ==> VisibleRegisterStep(v) == Some(step)
    ensures !(1 <= step <= 3) ==> !v.start && !v.qr && !v.totp
  {
    RegisterPanels(step == 1, step == 2, step == 3)
  }

  // ---------------------------------------------------------------------------
  // Input checks
  // ---------------------------------------------------------------------------

  predicate SixDigits(t: string) {
    |t| == 6 && AllDigits(t)
  }

  /** `!totp || !/^\d{6}$/.test(totp)` on the trimmed input, inverted: the
      code to send, or `None` when the input is refused. */
  function TotpInput(raw: string): (r: Option<string>)
    ensures r.Some? ==> SixDigits(r.value) && r.value == Trim(raw)
    ensures r.None? ==> !SixDigits(Trim(raw))
  {
    var t := Trim(raw);
    if t == [] || !SixDigits(t) then None else Some(t)
  }

  /** Six digits with any white space around them are accepted as those digits. */
  lemma TotpInputPadded(a: string, code: string, b: string)
    requires AllSpace(a) && AllSpace(b) && SixDigits(code)
    ensures TotpInput(a + code + b) == Some(code)
  {
    assert !IsSpace(code[0]) && !IsSpace(code[5]);
    TrimPadded(a, code, b);
  }

  /** Conversely, an accepted input is six digits padded with white space only. */
  lemma TotpInputShape(raw: string)
    requires TotpInput(raw).Some?
    ensures exists i | 0 <= i <= |raw| - 6 ::
              && raw[i..i + 6] == TotpInput(raw).value
              && AllSpace(raw[..i]) && AllSpace(raw[i + 6..])
  {
  }

  /** `/(not\s*found|user tidak ditemukan|user not exist|tidak ditemukan)/i`,
      read as a regular expression: one of the alternatives occurs somewhere. */
  ghost predicate NotFoundPattern(m: string) {
    || (exists i: nat, k: nat :: NotSpacesFoundAt(m, i, k))
    || ContainsFolded(m, "user tidak ditemukan")
    || ContainsFolded(m, "user not exist")
    || ContainsFolded(m, "tidak ditemukan")
  }

  /** The pattern's test, as a scan over start positions. */
  function NotFoundText(m: string): (found: bool)
    ensures found <==> NotFoundPattern(m)
  {
    var notFound := SearchNotFound(m, 0);
    assert notFound <==> exists i: nat, k: nat :: NotSpacesFoundAt(m, i, k) by {
      forall i: nat | i <= |m| {
        NotFoundAtIff(m, i);
      }
      if exists i: nat, k: nat :: NotSpacesFoundAt(m, i, k) {
        var i: nat, k: nat :| NotSpacesFoundAt(m, i, k);
        NotFoundAtIff(m, i);
      }
    }
    || notFound
    || SearchFolded(m, "user tidak ditemukan", 0)
    || SearchFolded(m, "user not exist", 0)
    || SearchFolded(m, "tidak ditemukan", 0)
  }

  // ---------------------------------------------------------------------------
  // Page state
  // ---------------------------------------------------------------------------

  datatype Page = LoginPage | DashboardPage

  datatype Alert = NoAlert | Warning(text: string) | Danger(text: string)

  /** What the user has typed into the six inputs. */
  datatype Inputs = Inputs(
    loginUsername: string, loginPassword: string, loginTotp: string,
    registerUsername: string, registerPassword: string, registerTotp: string)

  /** `registerState`: what the register flow carries from init to finish. */
  datatype RegisterState = RegisterState(username: string, password: string, secret: string, qrCode: string)

  /** `loginState`: what the login flow carries from step 1 to step 2. */
  datatype LoginState = LoginState(username: string, password: string, tempToken: string, mfaQr: string)

  /** Everything the page's handlers read or write: the page shown, the token
      in local storage, the inputs, and the login and register widgets. */
  datatype Client = Client(
    page: Page,
    savedToken: Option<string>,
    inputs: Inputs,
    loginPanels: LoginPanels,
    loginAlert: Alert,
    loginState: LoginState,
    registerOpen: bool,
    registerPanels: RegisterPanels,
    registerAlert: Alert,
    registerState: RegisterState)

  /** A handler's effect: the new page state and the request it sends, if any. */
  datatype Step = Step(client: Client, request: Option<Request>)

  const FieldsRequired := "Username dan password wajib diisi."
  const TotpFormat := "TOTP harus 6 digit angka"
  const RegisterUnreachable := "Gagal terhubung ke server."
  const AlreadyRegistered := "User sudah terdaftar, silakan login."
  const RegisterFailed := "Registrasi gagal."
  const ActivationFailed := "TOTP salah / aktivasi gagal."
  const LoginUnreachable := "Tidak dapat terhubung ke server"
  const LoginFailed := "Login gagal"
  const TotpWrong := "TOTP salah"
  const MfaSetupFailed := "Gagal setup MFA"
  const NotFoundPrompt := "User tidak ditemukan, silakan lanjutkan registrasi dan aktifkan MFA."
  const TotpRequiredText := "TOTP required"

  /** `data.message || fallback`. */
  function MessageOr(b: Body, fallback: string): (t: string)
    ensures Given(b.message) ==> t == b.message.value
    ensures !Given(b.message) ==> t == fallback
  {
    if Given(b.message) then b.message.value else fallback
  }

  /** A reply carries a usable token: ok status and a non-empty token. */
  predicate Accepted(r: Response) {
    IsOk(r) && Given(r.body.token)
  }

  // ---------------------------------------------------------------------------
  // Register modal
  // ---------------------------------------------------------------------------

  /** `btnRegisterStart` up to its request: trimmed username and password,
      both required; they are kept in `registerState` before the request goes. */
  function StartRegister(c: Client): (s: Step)
    ensures s.client == c.(registerAlert := s.client.registerAlert, registerState := s.client.registerState)
    ensures s.request.Some? <==>
              (Trim(c.inputs.registerUsername) != "" && Trim(c.inputs.registerPassword) != "")
    ensures s.request.None? ==> s.client == c.(registerAlert := Warning(FieldsRequired))
    ensures s.request.Some? ==>
              && s.request.value == RegisterInitRequest(Trim(c.inputs.registerUsername), Trim(c.inputs.registerPassword))
              && s.client.registerAlert == NoAlert
              && s.client.registerState == c.registerState.(username := s.request.value.username,
                                                            password := s.request.value.password)
  {
    var username := Trim(c.inputs.registerUsername);
    var password := Trim(c.inputs.registerPassword);
    if username == "" || password == "" then
      Step(c.(registerAlert := Warning(FieldsRequired)), None)
    else
      Step(c.(registerAlert := NoAlert,
              registerState := c.registerState.(username := username, password := password)),
           Some(RegisterInitRequest(username, password)))
  }

  /** `btnRegisterStart` after the reply: the secret and QR code are kept, and
      the QR panel shown, only for an ok reply that carries both. */
  function RegisterInitReply(c: Client, reply: Option<Response>): (c': Client)
    ensures c' == c.(registerAlert := c'.registerAlert, registerState := c'.registerState,
                     registerPanels := c'.registerPanels)
    ensures c'.registerState != c.registerState || c'.registerPanels != c.registerPanels ==>
              && reply.Some? && IsOk(reply.value)
              && Given(reply.value.body.qrCode) && Given(reply.value.body.secret)
    ensures reply.Some? && IsOk(reply.value) && Given(reply.value.body.qrCode) && Given(reply.value.body.secret) ==>
              && c'.registerState == c.registerState.(qrCode := reply.value.body.qrCode.value,
                                                      secret := reply.value.body.secret.value)
              && c'.registerPanels == ShowRegisterStep(2)
              && c'.registerAlert == c.registerAlert
    ensures reply.Some? && !(IsOk(reply.value) && Given(reply.value.body.qrCode) && Given(reply.value.body.secret)) ==>
              c'.registerAlert == (if Given(reply.value.body.message) && SearchFolded(reply.value.body.message.value, "exist", 0)
                                   then Danger(AlreadyRegistered)
                                   else Danger(MessageOr(reply.value.body, RegisterFailed)))
    ensures reply.None? ==> c' == c.(registerAlert := Danger(RegisterUnreachable))
  {
    match reply
    case None => c.(registerAlert := Danger(RegisterUnreachable))
    case Some(r) =>
      if IsOk(r) && Given(r.body.qrCode) && Given(r.body.secret) then
        c.(registerState := c.registerState.(qrCode := r.body.qrCode.value, secret := r.body.secret.value),
           registerPanels := ShowRegisterStep(2))
      else if Given(r.body.message) && SearchFolded(r.body.message.value, "exist", 0) then
        c.(registerAlert := Danger(AlreadyRegistered))
      else
        c.(registerAlert := Danger(MessageOr(r.body, RegisterFailed)))
  }

  /** A refused init reply whose message mentions "exist" in any letter case
      is reported as an existing account. */
  lemma RegisterInitReplyExisting(c: Client, r: Response, i: nat)
    requires !(IsOk(r) && Given(r.body.qrCode) && Given(r.body.secret))
    requires r.body.message.Some? && MatchesAt(r.body.message.value, i, "exist")
    ensures RegisterInitReply(c, Some(r)).registerAlert == Danger(AlreadyRegistered)
  {
  }

  /** `btnRegisterAfterQr`. */
  function RegisterAfterQr(c: Client): (c': Client)
    ensures VisibleRegisterStep(c'.registerPanels) == Some(3)
    ensures c' == c.(registerPanels := c'.registerPanels)
  {
    c.(registerPanels := ShowRegisterStep(3))
  }

  /** `btnRegisterTotpSubmit` up to its request: a well-formed code is sent
      with the username, password and secret captured by the init step. */
  function SubmitRegisterTotp(c: Client): (s: Step)
    ensures s.client == c.(registerAlert := s.client.registerAlert)
    ensures s.request.Some? <==> TotpInput(c.inputs.registerTotp).Some?
    ensures s.request.None? ==> s.client.registerAlert == Warning(TotpFormat)
    ensures s.request.Some? ==>
              && s.client.registerAlert == NoAlert
              && s.request.value == RegisterFinishRequest(c.registerState.username, c.registerState.password,
                                                          c.registerState.secret, Trim(c.inputs.registerTotp))
  {
    match TotpInput(c.inputs.registerTotp)
    case None => Step(c.(registerAlert := Warning(TotpFormat)), None)
    case Some(code) =>
      var rs := c.registerState;
      Step(c.(registerAlert := NoAlert), Some(RegisterFinishRequest(rs.username, rs.password, rs.secret, code)))
  }

  /** `btnRegisterTotpSubmit` after the reply: an ok reply with a token
      stores it, closes the modal and opens the dashboard. */
  function RegisterFinishReply(c: Client, reply: Option<Response>): (c': Client)
    ensures c' == c.(registerAlert := c'.registerAlert, savedToken := c'.savedToken,
                     registerOpen := c'.registerOpen, page := c'.page)
    ensures reply.Some? && Accepted(reply.value) ==>
              c' == c.(savedToken := reply.value.body.token, registerOpen := false, page := DashboardPage)
    ensures !(reply.Some? && Accepted(reply.value)) ==>
              c' == c.(registerAlert := c'.registerAlert) && c'.registerAlert.Danger?
    ensures reply.Some? && !Accepted(reply.value) ==>
              c'.registerAlert == Danger(MessageOr(reply.value.body, ActivationFailed))
    ensures reply.None? ==> c'.registerAlert == Danger(RegisterUnreachable)
  {
    match reply
    case None => c.(registerAlert := Danger(RegisterUnreachable))
    case Some(r) =>
      if Accepted(r) then
        c.(savedToken := r.body.token, registerOpen := false, page := DashboardPage)
      else
        c.(registerAlert := Danger(MessageOr(r.body, ActivationFailed)))
  }

  // ---------------------------------------------------------------------------
  // Login form
  // ---------------------------------------------------------------------------

  /** The login form's submit handler up to its request: ignored unless step 1
      is shown; the username is trimmed, the password is not; both required. */
  function SubmitLogin(c: Client): (s: Step)
    ensures s.client == c.(loginAlert := s.client.loginAlert, loginState := s.client.loginState)
    ensures !c.loginPanels.step1 ==> s == Step(c.(loginAlert := NoAlert), None)
    ensures s.request.Some? <==>
              (c.loginPanels.step1 && Trim(c.inputs.loginUsername) != "" && c.inputs.loginPassword != "")
    ensures c.loginPanels.step1 && s.request.None? ==> s.client == c.(loginAlert := Warning(FieldsRequired))
    ensures s.request.Some? ==>
              && s.request.value == LoginRequest(Trim(c.inputs.loginUsername), c.inputs.loginPassword, None)
              && s.client.loginAlert == NoAlert
              && s.client.loginState == c.loginState.(username := Trim(c.inputs.loginUsername),
                                                      password := c.inputs.loginPassword)
  {
    if !c.loginPanels.step1 then
      Step(c.(loginAlert := NoAlert), None)
    else
      var username := Trim(c.inputs.loginUsername);
      var password := c.inputs.loginPassword;
      if username == "" || password == "" then
        Step(c.(loginAlert := Warning(FieldsRequired)), None)
      else
        Step(c.(loginAlert := NoAlert, loginState := c.loginState.(username := username, password := password)),
             Some(LoginRequest(username, password, None)))
  }

  /** The five ways the login form reacts to a reply, in priority order. */
  datatype LoginReaction =
    | EnterDashboard(token: string)
    | AskTotp
    | SetUpMfa(token: string)
    | OfferRegistration
    | LoginError(text: string)

  /** A reply that says the user does not exist: status 404, or a message
      the not-found pattern matches. */
  predicate SaysNotFound(r: Response) {
    r.status == 404 || (Given(r.body.message) && NotFoundText(r.body.message.value))
  }

  /** The dispatch on a login reply: token first, then the TOTP challenge,
      then a token on a failed reply, then "not found", else an error. */
  function ReactToLogin(r: Response): (a: LoginReaction)
    ensures a.EnterDashboard? <==> Accepted(r)
    ensures a.AskTotp? <==> !Accepted(r) && r.body.message == Some(TotpRequiredText)
    ensures a.SetUpMfa? <==>
              (!Accepted(r) && r.body.message != Some(TotpRequiredText) && Given(r.body.token))
    ensures a.OfferRegistration? <==>
              ( && r.body.message != Some(TotpRequiredText) && !Given(r.body.token)
                && SaysNotFound(r))
    ensures a.EnterDashboard? || a.SetUpMfa? ==> Some(a.token) == r.body.token
    ensures a.LoginError? ==> a.text == MessageOr(r.body, LoginFailed)
  {
    if Accepted(r) then EnterDashboard(r.body.token.value)
    else if r.body.message == Some(TotpRequiredText) then AskTotp
    else if Given(r.body.token) then SetUpMfa(r.body.token.value)
    else if SaysNotFound(r) then OfferRegistration
    else LoginError(MessageOr(r.body, LoginFailed))
  }

  /** The login form's submit handler after the reply. */
  function LoginReply(c: Client, reply: Option<Response>): (s: Step)
    ensures reply.None? ==> s == Step(c.(loginAlert := Danger(LoginUnreachable)), None)
    ensures reply.Some? && ReactToLogin(reply.value).EnterDashboard? ==>
              s == Step(c.(savedToken := reply.value.body.token, page := DashboardPage), None)
    ensures reply.Some? && ReactToLogin(reply.value).AskTotp? ==>
              && s == Step(c.(loginPanels := ShowLoginStep(2)), None)
              && VisibleLoginStep(s.client.loginPanels) == Some(2)
    ensures reply.Some? && ReactToLogin(reply.value).SetUpMfa? ==>
              && s.request == Some(MfaSetupRequest("Bearer " + reply.value.body.token.value))
              && s.client == c.(loginState := c.loginState.(tempToken := reply.value.body.token.value))
    ensures reply.Some? && ReactToLogin(reply.value).OfferRegistration? ==>
              && s.request.None?
              && s.client.registerOpen
              && s.client.inputs.registerUsername == c.loginState.username
              && s.client.inputs.registerPassword == c.loginState.password
              && VisibleRegisterStep(s.client.registerPanels) == Some(1)
              && s.client == c.(inputs := c.inputs.(registerUsername := c.loginState.username,
                                                    registerPassword := c.loginState.password),
                                registerOpen := true, registerPanels := ShowRegisterStep(1),
                                registerAlert := Warning(NotFoundPrompt))
    ensures reply.Some? && ReactToLogin(reply.value).LoginError? ==>
              s == Step(c.(loginAlert := Danger(ReactToLogin(reply.value).text)), None)
  {
    match reply
    case None => Step(c.(loginAlert := Danger(LoginUnreachable)), None)
    case Some(r) =>
      match ReactToLogin(r)
      case EnterDashboard(token) => Step(c.(savedToken := Some(token), page := DashboardPage), None)
      case AskTotp => Step(c.(loginPanels := ShowLoginStep(2)), None)
      case SetUpMfa(token) =>
        Step(c.(loginState := c.loginState.(tempToken := token)), Some(MfaSetupRequest("Bearer " + token)))
      case OfferRegistration =>
        var inputs := c.inputs.(registerUsername := c.loginState.username,
                                registerPassword := c.loginState.password);
        Step(c.(inputs := inputs, registerPanels := ShowRegisterStep(1), registerOpen := true,
                registerAlert := Warning(NotFoundPrompt)), None)
      case LoginError(text) => Step(c.(loginAlert := Danger(text)), None)
  }

  /** The MFA-setup branch after the `/mfa/setup` reply: a QR code moves the
      form to the QR panel, anything else is an error. */
  function MfaSetupReply(c: Client, reply: Option<Response>): (c': Client)
    ensures c' == c.(loginAlert := c'.loginAlert, loginState := c'.loginState, loginPanels := c'.loginPanels)
    ensures VisibleLoginStep(c'.loginPanels) == Some(3) || c'.loginPanels == c.loginPanels
    ensures c'.loginPanels != c.loginPanels || c'.loginState != c.loginState ==>
              reply.Some? && Given(reply.value.body.qrCode)
    ensures reply.Some? && Given(reply.value.body.qrCode) ==>
              c' == c.(loginState := c.loginState.(mfaQr := reply.value.body.qrCode.value),
                       loginPanels := ShowLoginStep(3))
    ensures !(reply.Some? && Given(reply.value.body.qrCode)) ==> c'.loginAlert.Danger?
    ensures reply.Some? && !Given(reply.value.body.qrCode) ==>
              c'.loginAlert == Danger(MessageOr(reply.value.body, MfaSetupFailed))
    ensures reply.None? ==> c'.loginAlert == Danger(LoginUnreachable)
  {
    match reply
    case None => c.(loginAlert := Danger(LoginUnreachable))
    case Some(r) =>
      if Given(r.body.qrCode) then
        c.(loginState := c.loginState.(mfaQr := r.body.qrCode.value), loginPanels := ShowLoginStep(3))
      else
        c.(loginAlert := Danger(MessageOr(r.body, MfaSetupFailed)))
  }

  /** `btnTotpNext` up to its request: a well-formed code is sent with the
      username and password kept from step 1. */
  function SubmitTotp(c: Client): (s: Step)
    ensures s.client == c.(loginAlert := s.client.loginAlert)
    ensures s.request.Some? <==> TotpInput(c.inputs.loginTotp).Some?
    ensures s.request.None? ==> s.client.loginAlert == Warning(TotpFormat)
    ensures s.request.Some? ==>
              && s.client.loginAlert == NoAlert
              && s.request.value == LoginRequest(c.loginState.username, c.loginState.password,
                                                 Some(Trim(c.inputs.loginTotp)))
  {
    match TotpInput(c.inputs.loginTotp)
    case None => Step(c.(loginAlert := Warning(TotpFormat)), None)
    case Some(code) =>
      Step(c.(loginAlert := NoAlert), Some(LoginRequest(c.loginState.username, c.loginState.password, Some(code))))
  }

  /** `btnTotpNext` after the reply: a token opens the dashboard, anything
      else is an error. */
  function TotpReply(c: Client, reply: Option<Response>): (c': Client)
    ensures c' == c.(loginAlert := c'.loginAlert, savedToken := c'.savedToken, page := c'.page)
    ensures reply.Some? && Accepted(reply.value) ==>
              c' == c.(savedToken := reply.value.body.token, page := DashboardPage)
    ensures !(reply.Some? && Accepted(reply.value)) ==>
              c' == c.(loginAlert := c'.loginAlert) && c'.loginAlert.Danger?
    ensures reply.Some? && !Accepted(reply.value) ==>
              c'.loginAlert == Danger(MessageOr(reply.value.body, TotpWrong))
    ensures reply.None? ==> c'.loginAlert == Danger(LoginUnreachable)
  {
    match reply
    case None => c.(loginAlert := Danger(LoginUnreachable))
    case Some(r) =>
      if Accepted(r) then c.(savedToken := r.body.token, page := DashboardPage)
      else c.(loginAlert := Danger(MessageOr(r.body, TotpWrong)))
  }

  /** `btnAfterQr`: from the QR panel on to the TOTP panel. */
  function LoginAfterQr(c: Client): (c': Client)
    ensures VisibleLoginStep(c'.loginPanels) == Some(2) && c'.loginPanels.totpRequired
    ensures c' == c.(loginPanels := c'.loginPanels)
  {
    c.(loginPanels := ShowLoginStep(2))
  }
}

=== FILE: protocol.dfy ===
/** The login page and the server together: each request the page sends is
    answered by the matching route, and the page's reaction to the answer is
    followed through. */
module Protocol {
  import opened Wrappers
  import opened JsText
  import opened Codec
  import opened UserStore
  import opened Http
  import opened Server
  import opened LoginFlow

  /** The route that answers a request from the page; `generated` is the
      secret `generateSecret` returns if the route asks for one. */
  function Serve(o: Oracles, st: Store, req: Request, generated: string): (r: Outcome)
    ensures r.response.body.token.Some? ==> r.response.status == 200
    ensures Valid(st) ==> Valid(r.store)
    ensures !req.MfaSetupRequest? && !req.RegisterFinishRequest? ==> r.store == st
    ensures req.LoginRequest? ==>
              (r.response.status == 200 <==> Authenticated(o, st, Some(req.username), Some(req.password), req.totp))
    ensures req.RegisterInitRequest? ==>
              (r.response.status == 200 <==> req.username != "" && req.password != "" && req.username !in st.users)
    ensures req.RegisterFinishRequest? ==>
              (r.response.status == 200 <==>
                 && req.username != "" && req.password != "" && req.secret != "" && req.code != ""
                 && req.username !in st.users && o.totpOk(req.code, req.secret))
    ensures req.MfaSetupRequest? ==>
              (r.response.status == 200 <==> AuthenticateToken(o, Some(req.authorization)).Ok?)
  {
    match req
    case LoginRequest(u, p, t) => Login(o, st, Some(u), Some(p), t)
    case RegisterInitRequest(u, p) => RegisterInit(o, st, Some(u), Some(p), generated)
    case RegisterFinishRequest(u, p, s, code) => RegisterFinish(o, st, Some(u), Some(p), Some(s), Some(code))
    case MfaSetupRequest(h) => MfaSetupRoute(o, st, Some(h), generated)
  }

  /** The server only sends a token with a 200, so the page's branch for "a
      token on a failed reply" is never taken against this server. */
  lemma NoMfaSetupBranch(o: Oracles, st: Store, req: Request, generated: string)
    ensures !ReactToLogin(Serve(o, st, req, generated).response).SetUpMfa?
  {
  }

  /** A literal with a 'u' at `j` matches nowhere in a text without one. */
  lemma NoMatchWithoutU(m: string, lit: string, j: nat, i: nat)
    requires 'u' !in m && 'U' !in m
    requires j < |lit| && lit[j] == 'u'
    ensures !MatchesAt(m, i, lit)
  {
    if i + |lit| <= |m| {
      assert m[i + j] in m;
      assert AsciiLower(m[i + j]) != lit[j];
    }
  }

  /** A message with no 'u' in either case cannot match the not-found
      pattern: every alternative holds a 'u'. */
  lemma NoUNotFound(m: string)
    requires 'u' !in m && 'U' !in m
    ensures !NotFoundText(m)
  {
    forall i: nat, k: nat ensures !NotSpacesFoundAt(m, i, k) {
      NoMatchWithoutU(m, "found", 2, k);
    }
    forall i | 0 <= i <= |m| ensures !MatchesAt(m, i, "user tidak ditemukan") {
      NoMatchWithoutU(m, "user tidak ditemukan", 0, i);
    }
    forall i | 0 <= i <= |m| ensures !MatchesAt(m, i, "user not exist") {
      NoMatchWithoutU(m, "user not exist", 0, i);
    }
    forall i | 0 <= i <= |m| ensures !MatchesAt(m, i, "tidak ditemukan") {
      NoMatchWithoutU(m, "tidak ditemukan", 11, i);
    }
  }

  /** The wrong-password message holds no 'u' in either case. */
  lemma RejectionsHaveNoU()
    ensures 'u' !in InvalidCredentials && 'U' !in InvalidCredentials
  {
  }

  /** A wrong password reaches the user as an error, not as an offer to
      register. */
  lemma WrongPasswordIsAnError()
    ensures ReactToLogin(Message(401, InvalidCredentials)) == LoginError(InvalidCredentials)
  {
    RejectionsHaveNoU();
    NoUNotFound(InvalidCredentials);
  }

  /** Step 1 of login against the server: the form is submitted, the
      `/login` route answers, and the form reacts to the answer. */
  function LoginRound(o: Oracles, st: Store, c: Client): (s: Step)
    requires SubmitLogin(c).request.Some?
    ensures s.request.None?
  {
    var s1 := SubmitLogin(c);
    LoginReply(s1.client, Some(Serve(o, st, s1.request.value, "").response))
  }

  /** An unknown username turns into the registration modal, prefilled with
      what was typed into the login form. */
  lemma LoginUnknownUserOffersRegistration(o: Oracles, st: Store, c: Client)
    requires SubmitLogin(c).request.Some?
    requires Trim(c.inputs.loginUsername) !in st.users
    ensures var s := LoginRound(o, st, c);
            && s.client.registerOpen
            && s.client.inputs.registerUsername == Trim(c.inputs.loginUsername)
            && s.client.inputs.registerPassword == c.inputs.loginPassword
            && VisibleRegisterStep(s.client.registerPanels) == Some(1)
            && s.client.page == c.page
  {
  }

  /** A wrong password for a known user is reported, and nothing else moves. */
  lemma LoginWrongPassword(o: Oracles, st: Store, c: Client)
    requires SubmitLogin(c).request.Some?
    requires var u := Trim(c.inputs.loginUsername);
             u in st.users && !o.matches(c.inputs.loginPassword, st.users[u].passwordHash)
    ensures var s := LoginRound(o, st, c);
            && s.client == c.(loginAlert := Danger(InvalidCredentials),
                              loginState := c.loginState.(username := Trim(c.inputs.loginUsername),
                                                          password := c.inputs.loginPassword))
  {
    WrongPasswordIsAnError();
  }

  /** The right password for an account with MFA leads to the TOTP panel,
      with the credentials kept for step 2 and no token saved. */
  lemma LoginAsksForTotp(o: Oracles, st: Store, c: Client)
    requires SubmitLogin(c).request.Some?
    requires var u := Trim(c.inputs.loginUsername);
             PasswordAccepted(o, st, Some(u), Some(c.inputs.loginPassword)) && HasMfa(st.users[u])
    ensures var s := LoginRound(o, st, c);
            && VisibleLoginStep(s.client.loginPanels) == Some(2)
            && s.client.loginPanels.totpRequired
            && s.client.loginState.username == Trim(c.inputs.loginUsername)
            && s.client.loginState.password == c.inputs.loginPassword
            && s.client.savedToken == c.savedToken
            && s.client.page == c.page
  {
  }

  /** The right password for an account without MFA opens the dashboard
      with a token for that account. */
  lemma LoginWithoutMfaOpensDashboard(o: Oracles, st: Store, c: Client)
    requires SubmitLogin(c).request.Some?
    requires var u := Trim(c.inputs.loginUsername);
             && PasswordAccepted(o, st, Some(u), Some(c.inputs.loginPassword))
             && !HasMfa(st.users[u])
             && o.sign(Claims(st.users[u].id, u)) != ""
    ensures var u := Trim(c.inputs.loginUsername);
            var s := LoginRound(o, st, c);
            && s.client.page == DashboardPage
            && s.client.savedToken == Some(o.sign(Claims(st.users[u].id, u)))
  {
  }

  /** Step 2 of login against the server: a well-formed code is checked
      against the account's secret; the dashboard opens exactly when it
      passes, and otherwise the page shows "Invalid TOTP". */
  lemma LoginStepTwo(o: Oracles, st: Store, c: Client, generated: string)
    requires c.page == LoginPage
    requires PasswordAccepted(o, st, Some(c.loginState.username), Some(c.loginState.password))
    requires HasMfa(st.users[c.loginState.username])
    requires TotpInput(c.inputs.loginTotp).Some?
    requires o.sign(Claims(st.users[c.loginState.username].id, c.loginState.username)) != ""
    ensures var u := c.loginState.username;
            var code := Trim(c.inputs.loginTotp);
            var s1 := SubmitTotp(c);
            var out := Serve(o, st, s1.request.value, generated);
            var c2 := TotpReply(s1.client, Some(out.response));
            && out.store == st
            && (c2.page == DashboardPage <==> o.totpOk(code, st.users[u].mfaSecret.value))
            && (o.totpOk(code, st.users[u].mfaSecret.value) ==>
                  c2.savedToken == Some(o.sign(Claims(st.users[u].id, u))))
            && (!o.totpOk(code, st.users[u].mfaSecret.value) ==> c2.loginAlert == Danger(InvalidTotp))
  {
    var u := c.loginState.username;
    var code := Trim(c.inputs.loginTotp);
    assert code != "";
  }

  // ---------------------------------------------------------------------------
  // Registration through the modal
  // ---------------------------------------------------------------------------

  /** The modal's first button against `/register/init`. */
  function RegisterInitRound(o: Oracles, st: Store, c: Client, generated: string): (c': Client)
    requires StartRegister(c).request.Some?
    ensures c'.page == c.page && c'.savedToken == c.savedToken
  {
    var s := StartRegister(c);
    RegisterInitReply(s.client, Some(Serve(o, st, s.request.value, generated).response))
  }

  /** The modal's last button against `/register/finish`: the page after the
      reply and the store after the request. */
  function RegisterFinishRound(o: Oracles, st: Store, c: Client): (r: (Client, Store))
    requires SubmitRegisterTotp(c).request.Some?
    ensures Valid(st) ==> Valid(r.1)
  {
    var s := SubmitRegisterTotp(c);
    var out := Serve(o, st, s.request.value, "");
    (RegisterFinishReply(s.client, Some(out.response)), out.store)
  }

  /** Init for a free username keeps the server's secret and QR code and
      moves to the QR panel; the store is not touched. */
  lemma RegisterInitShowsQr(o: Oracles, st: Store, c: Client, generated: string)
    requires StartRegister(c).request.Some?
    requires Trim(c.inputs.registerUsername) !in st.users
    requires generated != "" && ProvisioningQr(o, Trim(c.inputs.registerUsername), generated) != ""
    ensures var u := Trim(c.inputs.registerUsername);
            var c' := RegisterInitRound(o, st, c, generated);
            && c'.registerState == RegisterState(u, Trim(c.inputs.registerPassword), generated,
                                                 ProvisioningQr(o, u, generated))
            && VisibleRegisterStep(c'.registerPanels) == Some(2)
  {
  }

  /** The modal opened for an unknown username sends that same username to
      `/register/init`, which, the name being free, answers with a QR code. */
  lemma UnknownUserRegisters(o: Oracles, st: Store, c: Client, generated: string)
    requires SubmitLogin(c).request.Some?
    requires Trim(c.inputs.loginUsername) !in st.users
    requires Trim(c.inputs.loginPassword) != ""
    requires generated != "" && ProvisioningQr(o, Trim(c.inputs.loginUsername), generated) != ""
    ensures var c2 := LoginRound(o, st, c).client;
            && StartRegister(c2).request == Some(RegisterInitRequest(Trim(c.inputs.loginUsername),
                                                                     Trim(c.inputs.loginPassword)))
            && VisibleRegisterStep(RegisterInitRound(o, st, c2, generated).registerPanels) == Some(2)
  {
    LoginUnknownUserOffersRegistration(o, st, c);
    TrimIdempotent(c.inputs.loginUsername);
    var c2 := LoginRound(o, st, c).client;
    RegisterInitShowsQr(o, st, c2, generated);
  }

  /** The 409 message of init holds "exist" from its fourteenth letter on. */
  lemma UserExistsSaysExist()
    ensures MatchesAt(UserExists, 13, "exist")
  {
    assert UserExists[13..18] == "exist";
  }

  /** Init for a taken username reports an existing account: the 409 message
      mentions "exist". */
  lemma RegisterInitTaken(o: Oracles, st: Store, c: Client, generated: string)
    requires StartRegister(c).request.Some?
    requires Trim(c.inputs.registerUsername) in st.users
    ensures RegisterInitRound(o, st, c, generated).registerAlert == Danger(AlreadyRegistered)
  {
    var s := StartRegister(c);
    UserExistsSaysExist();
    RegisterInitReplyExisting(s.client, Message(409, UserExists), 13);
  }

  /** The code panel after a successful init: an accepted code stores the
      account kept in `registerState` and opens the dashboard with a token
      for the new id. */
  lemma RegistrationFinishes(o: Oracles, st: Store, c: Client)
    requires var rs := c.registerState;
             && rs.username != "" && rs.password != "" && rs.secret != ""
             && rs.username !in st.users
    requires TotpInput(c.inputs.registerTotp).Some?
    requires o.totpOk(Trim(c.inputs.registerTotp), c.registerState.secret)
    requires o.sign(Claims(st.nextId, c.registerState.username)) != ""
    ensures var rs := c.registerState;
            var (c', st') := RegisterFinishRound(o, st, c);
            && AddsOne(st, st', rs.username, Account(st.nextId, o.hash(rs.password), Some(rs.secret)))
            && c' == c.(registerAlert := NoAlert, savedToken := Some(o.sign(Claims(st.nextId, rs.username))),
                        registerOpen := false, page := DashboardPage)
  {
    var rs := c.registerState;
    var code := Trim(c.inputs.registerTotp);
    var s := SubmitRegisterTotp(c);
    assert s.request == Some(RegisterFinishRequest(rs.username, rs.password, rs.secret, code));
    var out := RegisterFinish(o, st, Some(rs.username), Some(rs.password), Some(rs.secret), Some(code));
    assert out.response == TokenReply(o, Claims(st.nextId, rs.username));
    assert Accepted(out.response);
  }

  /** The whole modal: init for a free username, the QR panel, the code panel
      with a code the secret accepts, and finish. The account is stored with
      the generated secret and the hash of the trimmed password, and the
      dashboard opens with a token for the new id. */
  lemma RegistrationCompletes(o: Oracles, st: Store, c: Client, generated: string, typed: string)
    requires StartRegister(c).request.Some?
    requires Trim(c.inputs.registerUsername) !in st.users
    requires generated != "" && ProvisioningQr(o, Trim(c.inputs.registerUsername), generated) != ""
    requires TotpInput(typed).Some? && o.totpOk(Trim(typed), generated)
    requires o.sign(Claims(st.nextId, Trim(c.inputs.registerUsername))) != ""
    ensures var u := Trim(c.inputs.registerUsername);
            var c2 := RegisterAfterQr(RegisterInitRound(o, st, c, generated));
            var c3 := c2.(inputs := c2.inputs.(registerTotp := typed));
            SubmitRegisterTotp(c3).request.Some? &&
            var (c4, st') := RegisterFinishRound(o, st, c3);
            && AddsOne(st, st', u, Account(st.nextId, o.hash(Trim(c.inputs.registerPassword)), Some(generated)))
            && c4.page == DashboardPage
            && !c4.registerOpen
            && c4.savedToken == Some(o.sign(Claims(st.nextId, u)))
  {
    RegisterInitShowsQr(o, st, c, generated);
    var c2 := RegisterAfterQr(RegisterInitRound(o, st, c, generated));
    var c3 := c2.(inputs := c2.inputs.(registerTotp := typed));
    RegistrationFinishes(o, st, c3);
  }

  /** A code the secret refuses leaves the store as it was and keeps the modal
      open with the server's message. */
  lemma RegistrationWrongCode(o: Oracles, st: Store, c: Client)
    requires SubmitRegisterTotp(c).request.Some?
    requires c.registerState.username != "" && c.registerState.password != ""
    requires c.registerState.secret != ""
    requires c.registerState.username !in st.users
    requires !o.totpOk(Trim(c.inputs.registerTotp), c.registerState.secret)
    ensures var (c', st') := RegisterFinishRound(o, st, c);
            && st' == st
            && c' == c.(registerAlert := Danger(InvalidTotp))
  {
  }

  /** Finishing without a successful init sends no secret, and the server
      turns the request away without storing anything. */
  lemma FinishWithoutInitRefused(o: Oracles, st: Store, c: Client)
    requires SubmitRegisterTotp(c).request.Some?
    requires c.registerState.secret == ""
    ensures var (c', st') := RegisterFinishRound(o, st, c);
            && st' == st
            && c' == c.(registerAlert := Danger(IncompleteRegistration))
  {
  }

  /** The modal trims the password before the account is created, the login
      form does not: when the typed password has outer white space and the
      hash only matches the text it was made from, typing the same password
      at login is refused as a wrong password. */
  lemma UntrimmedPasswordRefused(o: Oracles, st: Store, c: Client)
    requires SubmitLogin(c).request.Some?
    requires var u := Trim(c.inputs.loginUsername);
             && u in st.users
             && st.users[u].passwordHash == o.hash(Trim(c.inputs.loginPassword))
    requires Trim(c.inputs.loginPassword) != c.inputs.loginPassword
    requires forall x :: o.matches(x, o.hash(Trim(c.inputs.loginPassword))) ==> x == Trim(c.inputs.loginPassword)
    ensures LoginRound(o, st, c).client.loginAlert == Danger(InvalidCredentials)
  {
    LoginWrongPassword(o, st, c);
  }

  // ---------------------------------------------------------------------------
  // Tokens
  // ---------------------------------------------------------------------------

  /** A token from a successful login, sent back as `Bearer <token>`, passes
      the guard with the claims it was signed over, provided the signer emits
      a word without spaces that its verifier accepts. */
  lemma LoginTokenAuthenticates(o: Oracles, st: Store, u: string, p: string, t: Field)
    requires Login(o, st, Some(u), Some(p), t).response.status == 200
    requires var cl := Claims(st.users[u].id, u);
             o.sign(cl) != "" && ' ' !in o.sign(cl) && o.verify(o.sign(cl)) == Some(cl)
    ensures var cl := Claims(st.users[u].id, u);
            && Login(o, st, Some(u), Some(p), t).response.body.token == Some(o.sign(cl))
            && AuthenticateToken(o, Some("Bearer " + o.sign(cl))) == Ok(cl)
  {
    var tok := o.sign(Claims(st.users[u].id, u));
    BearerTokenOf("Bearer", tok, []);
    assert "Bearer" + " " + tok + [] == "Bearer " + tok;
  }

  /** With that token, `/mfa/setup` puts the generated secret on the logged-in
      account and on no other. */
  lemma UpgradeWithLoginToken(o: Oracles, st: Store, u: string, p: string, generated: string)
    requires Valid(st)
    requires Login(o, st, Some(u), Some(p), None).response.status == 200
    requires var cl := Claims(st.users[u].id, u);
             o.sign(cl) != "" && ' ' !in o.sign(cl) && o.verify(o.sign(cl)) == Some(cl)
    ensures var header := Some("Bearer " + o.sign(Claims(st.users[u].id, u)));
            var out := MfaSetupRoute(o, st, header, generated);
            && out.store.users == st.users[u := st.users[u].(mfaSecret := Some(generated))]
            && out.store.nextId == st.nextId
            && out.response == SecretReply(o, u, generated)
  {
    LoginTokenAuthenticates(o, st, u, p, None);
    SetSecretTouchesOneRow(st, st.users[u].id, generated, u);
  }
}

=== FILE: server.dfy ===
/** The server's route handlers as pure transitions: each takes the request
    fields and the user store and returns the response and the new store. */
module Server {
  import opened Wrappers
  import opened Codec
  import opened UserStore
  import opened Http
  import JsText

  /** A JSON body field: absent, or a string. */
  type Field = Option<string>

  datatype Outcome = Outcome(response: Response, store: Store)

  const CredentialsRequired := "Username and password are required"
  const UserExists := "User already exists"
  const IncompleteRegistration := "Incomplete registration data"
  const InvalidTotp := "Invalid TOTP"
  const UsernameTaken := "Username already exists"
  const UserRegistered := "User registered"
  const UserNotFound := "user not found"
  const InvalidCredentials := "Invalid credentials"
  const TotpRequired := "TOTP required"
  const TokenRequired := "Token required"
  const InvalidToken := "Invalid token"
  const Welcome := "Welcome"

  /** `res.json({ secret, qrCode })`: a new secret and its enrollment QR code. */
  function SecretReply(o: Oracles, username: string, secret: string): Response {
    Response(200, Body(None, None, Some(secret), Some(ProvisioningQr(o, username, secret)), None))
  }

  /** `res.json({ token })` for a token signed over `claims`. */
  function TokenReply(o: Oracles, claims: Claims): Response {
    Response(200, Body(None, Some(o.sign(claims)), None, None, None))
  }

  // ---------------------------------------------------------------------------
  // Registration
  // ---------------------------------------------------------------------------

  /** `POST /register/init`: hands out a generated secret for a free username and
      stores nothing. */
  function RegisterInit(o: Oracles, st: Store, username: Field, password: Field, generated: string)
    : (r: Outcome)
    ensures r.store == st
    ensures r.response == Message(400, CredentialsRequired) <==> !Given(username) || !Given(password)
    ensures r.response == Message(409, UserExists) <==>
              (Given(username) && Given(password) && username.value in st.users)
    ensures r.response.status == 200 <==> Given(username) && Given(password) && username.value !in st.users
    ensures r.response.status == 200 ==> r.response == SecretReply(o, username.value, generated)
  {
    if !Given(username) || !Given(password) then
      Outcome(Message(400, CredentialsRequired), st)
    else if username.value in st.users then
      Outcome(Message(409, UserExists), st)
    else
      Outcome(SecretReply(o, username.value, generated), st)
  }

  /** Every field of `/register/finish` is present and non-empty. */
  predicate FinishComplete(username: Field, password: Field, secret: Field, totp: Field) {
    Given(username) && Given(password) && Given(secret) && Given(totp)
  }

  /** `POST /register/finish`: checks completeness, then that the username is
      free, then the TOTP against the submitted secret; only then stores the
      account with that secret and signs a token for it. */
  function RegisterFinish(o: Oracles, st: Store, username: Field, password: Field, secret: Field, totp: Field)
    : (r: Outcome)
    ensures r.response == Message(400, IncompleteRegistration) <==>
              !FinishComplete(username, password, secret, totp)
    ensures r.response == Message(409, UserExists) <==>
              (FinishComplete(username, password, secret, totp) && username.value in st.users)
    ensures r.response == Message(401, InvalidTotp) <==>
              ( && FinishComplete(username, password, secret, totp)
                && username.value !in st.users
                && !o.totpOk(totp.value, secret.value))
    ensures r.response.status == 200 <==>
              ( && FinishComplete(username, password, secret, totp)
                && username.value !in st.users
                && o.totpOk(totp.value, secret.value))
    ensures r.response.status != 200 ==> r.store == st
    ensures r.response.status == 200 ==>
              && AddsOne(st, r.store, username.value,
                         Account(st.nextId, o.hash(password.value), Some(secret.value)))
              && r.response == TokenReply(o, Claims(r.store.users[username.value].id, username.value))
    ensures Valid(st) ==> Valid(r.store)
  {
    if !FinishComplete(username, password, secret, totp) then
      Outcome(Message(400, IncompleteRegistration), st)
    else if username.value in st.users then
      Outcome(Message(409, UserExists), st)
    else if !o.totpOk(totp.value, secret.value) then
      Outcome(Message(401, InvalidTotp), st)
    else
      var st' := Insert(st, username.value, o.hash(password.value), Some(secret.value)).value;
      var row := st'.users[username.value];
      Outcome(TokenReply(o, Claims(row.id, username.value)), st')
  }

  /** `POST /register` (the older route without MFA): the UNIQUE constraint,
      not a pre-check, turns a taken username away. */
  function Register(o: Oracles, st: Store, username: Field, password: Field): (r: Outcome)
    ensures r.response == Message(400, CredentialsRequired) <==> !Given(username) || !Given(password)
    ensures r.response == Message(400, UsernameTaken) <==>
              (Given(username) && Given(password) && username.value in st.users)
    ensures r.response == Message(201, UserRegistered) <==>
              (Given(username) && Given(password) && username.value !in st.users)
    ensures r.response.status != 201 ==> r.store == st
    ensures r.response.status == 201 ==>
              AddsOne(st, r.store, username.value, Account(st.nextId, o.hash(password.value), None))
    ensures Valid(st) ==> Valid(r.store)
  {
    if !Given(username) || !Given(password) then
      Outcome(Message(400, CredentialsRequired), st)
    else
      match Insert(st, username.value, o.hash(password.value), None)
      case Ok(st') => Outcome(Message(201, UserRegistered), st')
      case Err(DuplicateEntry) => Outcome(Message(400, UsernameTaken), st)
  }

  // ---------------------------------------------------------------------------
  // Tokens
  // ---------------------------------------------------------------------------

  /** `authHeader && authHeader.split(' ')[1]`: the second space-separated
      segment of a non-empty header, whatever its first segment says. */
  function BearerToken(header: Field): (r: Field)
    ensures r.Some? <==> Given(header) && ' ' in header.value
    ensures r.Some? ==> |JsText.Split(header.value)| >= 2 && r.value == JsText.Split(header.value)[1]
    ensures r.Some? ==> ' ' !in r.value
  {
    if !Given(header) || ' ' !in header.value then None
    else Some(JsText.SecondSegment(header.value))
  }

  /** A header `scheme + " " + token + rest` carries `token`, when neither
      word holds a space and `rest` is empty or starts with a space. */
  lemma BearerTokenOf(scheme: string, token: string, rest: string)
    requires ' ' !in scheme && ' ' !in token
    requires rest == [] || rest[0] == ' '
    ensures BearerToken(Some(scheme + " " + token + rest)) == Some(token)
  {
    JsText.SecondSegmentOf(scheme, token, rest);
  }

  /** `authenticateToken`: 401 without a token, 403 when verification fails,
      otherwise the verified claims, passed on as they are. */
  function AuthenticateToken(o: Oracles, header: Field): (r: Result<Claims, Response>)
    ensures r == Err(Message(401, TokenRequired)) <==> !Given(BearerToken(header))
    ensures r == Err(Message(403, InvalidToken)) <==>
              (Given(BearerToken(header)) && o.verify(BearerToken(header).value).None?)
    ensures r.Ok? <==> Given(BearerToken(header)) && o.verify(BearerToken(header).value).Some?
    ensures r.Ok? ==> Some(r.value) == o.verify(BearerToken(header).value)
  {
    var token := BearerToken(header);
    if !Given(token) then
      Err(Message(401, TokenRequired))
    else
      match o.verify(token.value)
      case None => Err(Message(403, InvalidToken))
      case Some(claims) => Ok(claims)
  }

  /** `GET /profile` behind the guard: echoes the verified claims. */
  function Profile(o: Oracles, header: Field): (r: Response)
    ensures r.status == 200 <==> AuthenticateToken(o, header).Ok?
    ensures r.status == 200 ==> r.body.user == o.verify(BearerToken(header).value)
    ensures r.status == 200 ==> r.body.message == Some(Welcome)
    ensures AuthenticateToken(o, header).Err? ==> r == AuthenticateToken(o, header).error
  {
    match AuthenticateToken(o, header)
    case Err(rejection) => rejection
    case Ok(claims) => Response(200, Body(Some(Welcome), None, None, None, Some(claims)))
  }

  // ---------------------------------------------------------------------------
  // MFA upgrade
  // ---------------------------------------------------------------------------

  /** `POST /mfa/setup` after the guard: stores a generated secret on the row
      whose id the token names, with no TOTP confirmation, and returns it. */
  function MfaSetup(o: Oracles, st: Store, user: Claims, generated: string): (r: Outcome)
    ensures r.response == SecretReply(o, user.username, generated)
    ensures r.store.nextId == st.nextId && r.store.users.Keys == st.users.Keys
    ensures forall u | u in st.users && st.users[u].id != user.id :: r.store.users[u] == st.users[u]
    ensures forall u | u in st.users && st.users[u].id == user.id ::
              && r.store.users[u].id == st.users[u].id
              && r.store.users[u].passwordHash == st.users[u].passwordHash
              && r.store.users[u].mfaSecret == Some(generated)
    ensures Valid(st) ==> Valid(r.store)
  {
    Outcome(SecretReply(o, user.username, generated), SetSecretWhereId(st, user.id, generated))
  }

  /** The whole `/mfa/setup` route: guard, then handler. */
  function MfaSetupRoute(o: Oracles, st: Store, header: Field, generated: string): (r: Outcome)
    ensures AuthenticateToken(o, header).Err? ==>
              r.store == st && r.response == AuthenticateToken(o, header).error
    ensures AuthenticateToken(o, header).Ok? ==>
              r == MfaSetup(o, st, AuthenticateToken(o, header).value, generated)
  {
    match AuthenticateToken(o, header)
    case Err(rejection) => Outcome(rejection, st)
    case Ok(claims) => MfaSetup(o, st, claims, generated)
  }

  /** The upgrade never consults the TOTP check: any TOTP behaviour gives the
      same outcome. */
  lemma MfaSetupSkipsTotp(o: Oracles, check: (string, string) -> bool, st: Store, header: Field, generated: string)
    ensures MfaSetupRoute(o, st, header, generated) == MfaSetupRoute(o.(totpOk := check), st, header, generated)
  {
  }

  // ---------------------------------------------------------------------------
  // Login
  // ---------------------------------------------------------------------------

  /** When a login deserves a token, independent of the order of the checks:
      a known user, the right password, and a passing TOTP if MFA is on. */
  ghost predicate Authenticated(o: Oracles, st: Store, username: Field, password: Field, totp: Field) {
    && Given(username) && Given(password)
    && username.value in st.users
    && var a := st.users[username.value];
       && o.matches(password.value, a.passwordHash)
       && (HasMfa(a) ==> Given(totp) && o.totpOk(totp.value, a.mfaSecret.value))
  }

  /** The fields are there, the user is known and the password matches. */
  predicate PasswordAccepted(o: Oracles, st: Store, username: Field, password: Field) {
    && Given(username) && Given(password)
    && username.value in st.users
    && o.matches(password.value, st.users[username.value].passwordHash)
  }

  /** `POST /login`: fields, then user, then password, then — only when the
      account has a secret — the TOTP; a token only past every check. */
  function Login(o: Oracles, st: Store, username: Field, password: Field, totp: Field): (r: Outcome)
    ensures r.store == st
    ensures r.response == Message(400, CredentialsRequired) <==> !Given(username) || !Given(password)
    ensures r.response == Message(404, UserNotFound) <==>
              (Given(username) && Given(password) && username.value !in st.users)
    ensures r.response == Message(401, InvalidCredentials) <==>
              ( && Given(username) && Given(password) && username.value in st.users
                && !PasswordAccepted(o, st, username, password))
    ensures r.response == Message(401, TotpRequired) <==>
              ( && PasswordAccepted(o, st, username, password)
                && HasMfa(st.users[username.value]) && !Given(totp))
    ensures r.response == Message(401, InvalidTotp) <==>
              ( && PasswordAccepted(o, st, username, password)
                && HasMfa(st.users[username.value]) && Given(totp)
                && !o.totpOk(totp.value, st.users[username.value].mfaSecret.value))
    ensures r.response.status == 200 <==> Authenticated(o, st, username, password, totp)
    ensures r.response.status == 200 ==>
              r.response == TokenReply(o, Claims(st.users[username.value].id, username.value))
  {
    if !Given(username) || !Given(password) then
      Outcome(Message(400, CredentialsRequired), st)
    else if username.value !in st.users then
      Outcome(Message(404, UserNotFound), st)
    else
      var a := st.users[username.value];
      if !o.matches(password.value, a.passwordHash) then
        Outcome(Message(401, InvalidCredentials), st)
      else if HasMfa(a) && !Given(totp) then
        Outcome(Message(401, TotpRequired), st)
      else if HasMfa(a) && !o.totpOk(totp.value, a.mfaSecret.value) then
        Outcome(Message(401, InvalidTotp), st)
      else
        Outcome(TokenReply(o, Claims(a.id, username.value)), st)
  }

  /** For an account without MFA the totp field makes no difference. */
  lemma LoginIgnoresTotpWithoutMfa(o: Oracles, st: Store, username: Field, password: Field, t1: Field, t2: Field)
    requires Given(username) && username.value in st.users && !HasMfa(st.users[username.value])
    ensures Login(o, st, username, password, t1) == Login(o, st, username, password, t2)
  {
  }

  // ---------------------------------------------------------------------------
  // Sequences of calls
  // ---------------------------------------------------------------------------

  /** One call to one route, with the secret `generateSecret` returns. */
  datatype Call =
    | InitCall(username: Field, password: Field, generated: string)
    | FinishCall(username: Field, password: Field, secret: Field, totp: Field)
    | RegisterCall(username: Field, password: Field)
    | MfaSetupCall(header: Field, generated: string)
    | LoginCall(username: Field, password: Field, totp: Field)
    | ProfileCall(header: Field)

  /** Dispatch a call to its route. Rows are only ever added or given a new
      secret: an existing username keeps its id and password hash, the store
      stays valid, and a token only ever comes with a 200. */
  function Handle(o: Oracles, st: Store, call: Call): (r: Outcome)
    ensures Valid(st) ==> Valid(r.store)
    ensures st.users.Keys <= r.store.users.Keys
    ensures forall u | u in st.users ::
              && r.store.users[u].id == st.users[u].id
              && r.store.users[u].passwordHash == st.users[u].passwordHash
    ensures r.response.body.token.Some? ==> r.response.status == 200
    ensures !call.MfaSetupCall? ==> forall u | u in st.users :: r.store.users[u] == st.users[u]
  {
    match call
    case InitCall(u, p, generated) => RegisterInit(o, st, u, p, generated)
    case FinishCall(u, p, s, t) => RegisterFinish(o, st, u, p, s, t)
    case RegisterCall(u, p) => Register(o, st, u, p)
    case MfaSetupCall(h, generated) => MfaSetupRoute(o, st, h, generated)
    case LoginCall(u, p, t) => Login(o, st, u, p, t)
    case ProfileCall(h) => Outcome(Profile(o, h), st)
  }

  /** The store after a sequence of calls. */
  function Run(o: Oracles, st: Store, calls: seq<Call>): Store
    decreases |calls|
  {
    if calls == [] then st else Run(o, Handle(o, st, calls[0]).store, calls[1..])
  }

  /** Every sequence of calls keeps ids positive, distinct and below the
      counter, and usernames unique. */
  lemma {:induction false} RunPreservesValid(o: Oracles, st: Store, calls: seq<Call>)
    requires Valid(st)
    ensures Valid(Run(o, st, calls))
    decreases |calls|
  {
    if calls != [] {
      RunPreservesValid(o, Handle(o, st, calls[0]).store, calls[1..]);
    }
  }

  /** Starting from the freshly created table, every sequence of calls
      leaves a valid store. */
  lemma RunFromEmpty(o: Oracles, calls: seq<Call>)
    ensures Valid(Run(o, Empty, calls))
  {
    RunPreservesValid(o, Empty, calls);
  }

  /** No sequence of calls deletes an account or changes its id or password hash. */
  lemma {:induction false} RunKeepsAccounts(o: Oracles, st: Store, calls: seq<Call>, u: string)
    requires u in st.users
    ensures u in Run(o, st, calls).users
    ensures Run(o, st, calls).users[u].id == st.users[u].id
    ensures Run(o, st, calls).users[u].passwordHash == st.users[u].passwordHash
    decreases |calls|
  {
    if calls != [] {
      RunKeepsAccounts(o, Handle(o, st, calls[0]).store, calls[1..], u);
    }
  }

  // ---------------------------------------------------------------------------
  // Registration followed by login
  // ---------------------------------------------------------------------------

  /** A successful finish can happen only once per username: repeating it
      is turned away with 409 and stores nothing. */
  lemma FinishTwiceConflicts(o: Oracles, st: Store, username: Field, password: Field, secret: Field, totp: Field)
    requires RegisterFinish(o, st, username, password, secret, totp).response.status == 200
    ensures var st' := RegisterFinish(o, st, username, password, secret, totp).store;
            && RegisterFinish(o, st', username, password, secret, totp).response == Message(409, UserExists)
            && RegisterFinish(o, st', username, password, secret, totp).store == st'
  {
  }

  /** After a successful finish, logging in with the same password but no
      code is a TOTP challenge; with a passing code it yields a token for the
      new account. */
  lemma LoginAfterFinish(o: Oracles, st: Store, username: Field, password: Field, secret: Field, totp: Field, code: string)
    requires RegisterFinish(o, st, username, password, secret, totp).response.status == 200
    requires o.matches(password.value, o.hash(password.value))
    ensures var st' := RegisterFinish(o, st, username, password, secret, totp).store;
            && Login(o, st', username, password, None).response == Message(401, TotpRequired)
            && (o.totpOk(code, secret.value) && code != "" ==>
                  Login(o, st', username, password, Some(code)).response
                    == TokenReply(o, Claims(st.nextId, username.value)))
  {
    var st' := RegisterFinish(o, st, username, password, secret, totp).store;
    assert st'.users[username.value] == Account(st.nextId, o.hash(password.value), Some(secret.value));
  }

  /** An account made by the older route logs in with its password alone;
      once `/mfa/setup` gives it a non-empty secret, the same login is a TOTP
      challenge. */
  lemma UpgradeTurnsOnChallenge(o: Oracles, st: Store, username: string, password: string, generated: string)
    requires Valid(st)
    requires Register(o, st, Some(username), Some(password)).response.status == 201
    requires o.matches(password, o.hash(password))
    requires generated != ""
    ensures var st1 := Register(o, st, Some(username), Some(password)).store;
            var claims := Claims(st1.users[username].id, username);
            var st2 := MfaSetup(o, st1, claims, generated).store;
            && Login(o, st1, Some(username), Some(password), None).response == TokenReply(o, claims)
            && Login(o, st2, Some(username), Some(password), None).response == Message(401, TotpRequired)
  {
    var st1 := Register(o, st, Some(username), Some(password)).store;
    var claims := Claims(st1.users[username].id, username);
    assert st1.users[username] == Account(st.nextId, o.hash(password), None);
    var st2 := MfaSetup(o, st1, claims, generated).store;
    assert st2.users[username].mfaSecret == Some(generated);
  }
}

=== FILE: userstore.dfy ===
/** The `users` table: one row per username, with an auto-increment id, a
    password hash and an optional TOTP secret. */
module UserStore {
  import opened Wrappers

  datatype Account = Account(id: nat, passwordHash: string, mfaSecret: Option<string>)

  /** The rows keyed by their UNIQUE username, and the next AUTO_INCREMENT id. */
  datatype Store = Store(users: map<string, Account>, nextId: nat)

  /** A freshly created table: no rows, ids start at 1. */
  const Empty := Store(map[], 1)

  /** Ids are positive, below the counter and distinct (the PRIMARY KEY);
      usernames are distinct because they are the map's keys. */
  ghost predicate Valid(st: Store) {
    && 1 <= st.nextId
    && (forall u | u in st.users :: 1 <= st.users[u].id < st.nextId)
    && (forall u, v | u in st.users && v in st.users && u != v :: st.users[u].id != st.users[v].id)
  }

  /** `if (user.mfa_secret)`: a NULL or empty secret means MFA is not enrolled. */
  predicate HasMfa(a: Account) {
    a.mfaSecret.Some? && a.mfaSecret.value != ""
  }

  /** `st'` is `st` with exactly one new row, `a` under `u`, and every other row as it was. */
  ghost predicate AddsOne(st: Store, st': Store, u: string, a: Account) {
    && u !in st.users
    && st'.users.Keys == st.users.Keys + {u}
    && st'.users[u] == a
    && (forall v | v in st.users :: st'.users[v] == st.users[v])
  }

  datatype InsertError = DuplicateEntry

  /** `INSERT INTO users …`: fails on a taken username (ER_DUP_ENTRY);
      otherwise adds the row under the next id. */
  function Insert(st: Store, username: string, passwordHash: string, mfaSecret: Option<string>)
    : (r: Result<Store, InsertError>)
    ensures r.Err? <==> username in st.users
    ensures r.Ok? ==> AddsOne(st, r.value, username, Account(st.nextId, passwordHash, mfaSecret))
    ensures r.Ok? ==> r.value.nextId == st.nextId + 1
    ensures r.Ok? && Valid(st) ==> Valid(r.value)
  {
    if username in st.users then
      Err(DuplicateEntry)
    else
      Ok(Store(st.users[username := Account(st.nextId, passwordHash, mfaSecret)], st.nextId + 1))
  }

  /** `UPDATE users SET mfa_secret = ? WHERE id = ?`. */
  function SetSecretWhereId(st: Store, id: int, secret: string): (st': Store)
    ensures st'.nextId == st.nextId && st'.users.Keys == st.users.Keys
    ensures forall u | u in st.users && st.users[u].id != id :: st'.users[u] == st.users[u]
    ensures forall u | u in st.users && st.users[u].id == id ::
              && st'.users[u].id == id
              && st'.users[u].passwordHash == st.users[u].passwordHash
              && st'.users[u].mfaSecret == Some(secret)
    ensures Valid(st) ==> Valid(st')
  {
    var users := map u | u in st.users ::
      if st.users[u].id == id then st.users[u].(mfaSecret := Some(secret)) else st.users[u];
    Store(users, st.nextId)
  }

  /** In a valid store the update touches at most one row: the one holding `id`. */
  lemma SetSecretTouchesOneRow(st: Store, id: int, secret: string, u: string)
    requires Valid(st)
    requires u in st.users && st.users[u].id == id
    ensures var st' := SetSecretWhereId(st, id, secret);
            && st'.users == st.users[u := st.users[u].(mfaSecret := Some(secret))]
            && st'.nextId == st.nextId
  {
    var st' := SetSecretWhereId(st, id, secret);
    var expected := st.users[u := st.users[u].(mfaSecret := Some(secret))];
    assert st'.users.Keys == expected.Keys;
    forall v | v in st.users ensures st'.users[v] == expected[v] {
      if v != u {
        assert st.users[v].id != id;
      }
    }
  }

  /** An update for an id no row holds changes nothing. */
  lemma SetSecretUnknownId(st: Store, id: int, secret: string)
    requires forall u | u in st.users :: st.users[u].id != id
    ensures SetSecretWhereId(st, id, secret) == st
  {
    var st' := SetSecretWhereId(st, id, secret);
    assert st'.users == st.users;
  }
}

=== FILE: wrappers.dfy ===
/** Option and Result, the failure-carrying values the rest of the model returns. */
module Wrappers {

  /** A value that may be absent: an omitted JSON field, a missing header, a lookup miss. */
  datatype Option<+T> = None | Some(value: T) {

    /** The wrapped value, or `default` when absent. */
    function GetOr(default: T): T {
      match this
      case Some(v) => v
      case None => default
    }
  }

  /** A value or the error that stopped its computation. */
  datatype Result<+T, +E> = Ok(value: T) | Err(error: E)
}
